=== FILE: README.md ===
# pydantic_dict: a model of `BaseModelDict`

`BaseModelDict` is a pydantic model that also behaves as a built-in `dict`.
Its declared fields and its extra keys share one insertion-ordered
`__dict__`. A declared field whose default is `Unset` starts out holding a
Sentinel when it is not passed to the constructor, and stays hidden from the
dict interface until it is written; the per-instance `_unset` set records
which fields are hidden. `del`, `pop`, `popitem`, `clear`, `setdefault`,
`update` and `update_unsafe` first consult the class's mutation policy.
`__setitem__` is not guarded that way: writing an unset field pops it before
pydantic checks anything, so even a write that then fails moves the field to
the end of storage. The policy comes from `Config` options looked up along the
method resolution order by `getclsattr`.

This Dafny project models that protocol as pure functions over immutable
values:

- `results.dfy`, module `Results`: the exceptions the core raises, `Option`
  and `Result`.
- `class_attr.dfy`, module `ClassAttr`: `getclsattr`. It splits a dotted name,
  walks `getattr` through each class, and folds over the reversed MRO. A
  reference definition, `FirstMatch`, picks the most derived class that
  resolves the whole path.
- `policy.dfy`, module `Policies`: the policy record `{frozen, allowMutation,
  extra, validateAssignment}`, resolved from the four `Config` options.
  `Policy.DisallowsMutation` is the immutability guard.
- `storage.dfy`, module `Storage`: `__dict__` as an association list with
  unique keys. It has lookup, in-place-or-append assignment, deletion,
  `dict.update` and the scan for the first non-declared key.
- `model_dict.dfy`, module `ModelDict`: the schema (`__fields__`,
  `_default_unset`, policy), the instance (`__dict__`, `_unset`) and its
  invariant `Valid`. It also has every read, deletion and write of the dict
  interface, and `fromkeys`.
- `update.dfy`, module `Updates`: `update` with snapshot and rollback,
  `update_unsafe`, and the properties that span several operations.

Pydantic's own `BaseModel.__setattr__` is not part of this model. It appears
as `ModelDict.WriteGate`, which has three outcomes, checked in this order:

1. ValueError for a non-declared key while `extra` is not `allow`;
2. TypeError when mutation is disallowed;
3. ValidationError when an uninterpreted validator rejects the value of a
   declared field while `validate_assignment` is on.

Otherwise the value is assigned: in place for an existing key, appended for a
new one.

The model follows the code where the class docstring
(`pydantic_dict/base_model_dictionary.py:76-96`) or plain `dict` behaviour
suggests otherwise:

- `popitem` removes the EARLIEST non-declared key in storage order, not the
  most recently inserted one.
- `keys()`, `items()` and `values()` follow the single shared storage order,
  in which declared fields and extras stand in the order they were inserted.
- `__iter__` returns a set and has no order.
- `setdefault` runs the extra-fields check on any key `self[key]` rejects.
  That includes a declared field that is currently unset, so with `extra`
  not `allow`, `setdefault` on an unset field raises ValueError.
- Writing a non-Sentinel value to an unset field pops the field and inserts
  it again, so the field moves to the end of storage. It moves there even
  when the write fails; the old Sentinel is put back at the end.
- `update_unsafe` removes every written key from `_unset`, even one written
  with the Sentinel itself.
- For a single write (`d[k] = v`), the extra-fields check comes before the
  immutability check. `__setitem__` is not wrapped in the immutability
  guard, so the order is pydantic's.

## Model

| member | source | states |
|---|---|---|
| `ClassAttr.JoinSplit` | pydantic_dict/_utils.py:11 | Joining the pieces of `name.split(".")` with dots gives `name` back. |
| `ClassAttr.SplitJoin` | pydantic_dict/_utils.py:11 | Splitting dot-joined, dot-free segments gives the same segments back, so each option name is read as the path it was written as. |
| `ClassAttr.ScanIsMostDerivedWins` | pydantic_dict/_utils.py:13-21 | The loop over the reversed MRO, where each resolving class overwrites the running result, ends with the FIRST class of the MRO that resolves the whole path. The starting value survives only when no class resolves it. |
| `ClassAttr.UnresolvedClassContributesNothing` | pydantic_dict/_utils.py:16-19 | Removing from the MRO a class on which some segment is missing changes no lookup. |
| `ClassAttr.GetClsAttr` | pydantic_dict/_utils.py:8-29 | Returns the value from the most derived class on which the dotted path resolves. If none resolves it, returns the default when one was given, and raises AttributeError otherwise. |
| `Policies.ResolvePolicy` | pydantic_dict/base_model_dictionary.py:38-62 | Each setting is its most derived `Config` value, or the guard's default when no class defines it: frozen False, allow_mutation True, validate_assignment False. `extra` is the mode its most derived value names. The result is absent exactly when `extra` resolves nowhere or a setting is ill-typed. |
| `Policies.SubclassOverridesOnlyItsSetting` | pydantic_dict/base_model_dictionary.py:106-107 | A subclass whose `Config` sets only `validate_assignment` inherits `frozen`, `allow_mutation` and `extra` (in particular `allow`) from its bases. |
| `ModelDict.DeclareSchema` | pydantic_dict/base_model_dictionary.py:109-114 | The default-unset fields are a subset of the declared fields. With distinct names, they are exactly the declared fields whose default is the `Unset` factory. |
| `ModelDict.Init` | pydantic_dict/base_model_dictionary.py:117-125 | `_unset` is exactly the default-unset fields whose stored value is the Sentinel. Construction raises KeyError exactly when a default-unset field is missing from storage. With every declared field present, the instance is valid. |
| `ModelDict.ContainsAndGetItem` | pydantic_dict/base_model_dictionary.py:130-146 | `key in d` holds exactly when the key is stored and not unset. `d[key]` then returns the stored value, and raises KeyError otherwise. |
| `ModelDict.ViewsAgree` | pydantic_dict/base_model_dictionary.py:127-149 | `len` counts exactly the keys that `in`, `iter` and `keys()` report, and `d[k]` succeeds exactly on them. `items()` and `values()` pair each key of `keys()` with the value `d[k]` returns, in storage order. |
| `ModelDict.IterIsKeysAsSet` | pydantic_dict/base_model_dictionary.py:173-175 | `iter(d)` yields exactly the keys of `keys()`, as a set without order. On a valid instance it has `len(d)` elements. |
| `ModelDict.VisibleEntries` | pydantic_dict/base_model_dictionary.py:193-197 | `items()` holds exactly the stored entries whose key is not unset, in storage order, and `keys()` their keys. |
| `ModelDict.ValuesFollowItems` | pydantic_dict/base_model_dictionary.py:303-304 | `values()` lists, position by position, the value of each entry of `items()`, and each such entry is stored under a key that is not unset. |
| `ModelDict.UnsetFieldInvisible` | pydantic_dict/base_model_dictionary.py:193-197 | An unset field holds the Sentinel in storage. Yet `in` is false, `d[k]` raises KeyError, `get` returns the default, and `iter`, `keys()` and `items()` omit it. `len` is the storage size minus `len(_unset)`. |
| `ModelDict.Get` | pydantic_dict/base_model_dictionary.py:188-191 | `get` agrees with `d[k]` on contained keys and returns the default on all others. |
| `ModelDict.DelItem` | pydantic_dict/base_model_dictionary.py:136-141 | When mutation is disallowed: TypeError, nothing changes. A declared key, set or unset: KeyError, nothing changes. A missing key: KeyError, nothing changes. A present extra: that entry is cut out of storage and every other entry keeps its value and its order. The instance stays valid. |
| `ModelDict.Pop` | pydantic_dict/base_model_dictionary.py:199-207 | A declared key raises KeyError whatever the default. A present extra is cut out of storage and its value returned, and every other entry keeps its value and its order. A missing key returns the default without mutation, or raises KeyError when no default was given. |
| `ModelDict.PopItem` | pydantic_dict/base_model_dictionary.py:209-219 | Removes and returns the earliest entry in storage order whose key is not declared, closing the gap. Raises KeyError exactly when every entry is a declared field. |
| `ModelDict.Clear` | pydantic_dict/base_model_dictionary.py:177-182 | Removes exactly the non-declared keys. Declared fields keep their values and their relative storage order, and `_unset` is unchanged. |
| `ModelDict.ClearLeavesDeclaredFields` | pydantic_dict/base_model_dictionary.py:180-182 | After `clear()`, `len` is the number of declared fields that are not unset. |
| `ModelDict.WriteGate` | pydantic_dict/base_model_dictionary.py:159-167 | The reduced pydantic `__setattr__` succeeds exactly when the key is declared or extras are allowed, mutation is allowed, and the validator admits the value. On success the key reads back the admitted value and every other key is untouched. |
| `ModelDict.SetAttr` | pydantic_dict/base_model_dictionary.py:151-171 | On success, the key reads back the admitted value and every other key is untouched. A non-Sentinel write takes the key out of `_unset`. On failure, all contents and `_unset` are as before, and the instance itself is as before unless an unset field was being written. |
| `ModelDict.SetAttrOutcome` | pydantic_dict/base_model_dictionary.py:151-171 | A write raises ValueError exactly for an extra while extras are not allowed. Otherwise it raises TypeError exactly when mutation is disallowed. Otherwise it raises ValidationError exactly when the validator rejects. Nothing else can fail while every unset field is still stored. |
| `ModelDict.SetAttrOrder` | pydantic_dict/base_model_dictionary.py:153-166 | An unset field written with a non-Sentinel value moves to the end of storage. It holds the new value on success and the Sentinel on failure. Any other successful write keeps an existing key in place and appends a new key. |
| `ModelDict.SetAttrPreservesValid` | pydantic_dict/base_model_dictionary.py:151-167 | Every write keeps the invariant: `_unset` ⊆ default-unset ⊆ declared ⊆ stored keys, and each unset field holds the Sentinel. |
| `ModelDict.SettingUnsetFieldAppendsIt` | pydantic_dict/base_model_dictionary.py:153-166 | Successfully setting an unset field makes it visible: `len` grows by one, `d[k]` returns the stored value, and the key is appended as the LAST key of `keys()`. |
| `ModelDict.SetDefault` | pydantic_dict/base_model_dictionary.py:221-229 | Returns the current value unchanged when `d[k]` succeeds. Otherwise it raises ValueError with no mutation if extras are not allowed. Otherwise it writes and returns the default. A success leaves every other key's value as it was, and a failure leaves every value as it was. A new extra is appended to storage: `len` grows by one and `d[k]` is the default. An unset declared field written with a non-Sentinel default moves to the end of storage. The write succeeds exactly when the validator admits the default: the field then reads back the admitted value and becomes the last key of `keys()`. Otherwise it raises ValidationError, the field holds the Sentinel again, and `_unset` is unchanged. An unset field written with the Sentinel itself is not popped (:153): the write succeeds exactly when the validator admits the Sentinel, and then stores the admitted value. Otherwise it raises ValidationError. Either way the keys keep their positions and `_unset` is unchanged. |
| `ModelDict.FromKeysArgs` | pydantic_dict/base_model_dictionary.py:184-186 | The keyword-argument dict maps exactly the given keys, each to the given value, with no key twice. |
| `ModelDict.FromKeysOnFieldlessClass` | pydantic_dict/base_model_dictionary.py:184-186 | On a class without declared fields that allows extras, `fromkeys(keys, v)` has as many entries as distinct keys, and each key maps to `v`. |
| `Updates.SetEachOutcome` | pydantic_dict/base_model_dictionary.py:275-277 | Once the extra and immutability checks pass, the pair-by-pair write can raise only ValidationError, and it raises exactly when some pair is rejected. |
| `Updates.SetEachPreservesValid` | pydantic_dict/base_model_dictionary.py:275-277 | The pair-by-pair write keeps the invariant, whether it completes or stops at a rejected pair. |
| `Updates.SetEachWrites` | pydantic_dict/base_model_dictionary.py:275-277 | A successful pair-by-pair write leaves each written key holding its admitted value and every other key unchanged. It takes out of `_unset` exactly the keys written with a non-Sentinel value. |
| `Updates.UpdateUnsafe` | pydantic_dict/base_model_dictionary.py:285-301 | Only the immutability guard can fail. Written keys read back the written values and every other key is untouched. Every written key leaves `_unset`. Existing keys keep their positions. The new keys follow them in the order `values` lists them, so with only new keys the pairs are appended as given. The invariant is kept. |
| `Updates.Update` | pydantic_dict/base_model_dictionary.py:231-264 | The immutability check comes first. Then any non-declared key while extras are not allowed raises ValueError before anything is written. |
| `Updates.UpdateRaises` | pydantic_dict/base_model_dictionary.py:253-283 | On a valid instance, `update` either succeeds or raises TypeError, ValueError or ValidationError. |
| `Updates.UpdateAllOrNothing` | pydantic_dict/base_model_dictionary.py:266-283 | When `update` raises, `__dict__` and `_unset` are exactly as before the call. |
| `Updates.UpdateValidationError` | pydantic_dict/base_model_dictionary.py:266-283 | `update` raises ValidationError exactly when validation is on, every key may be written, and the validator rejects some pair. |
| `Updates.UpdatePreservesValid` | pydantic_dict/base_model_dictionary.py:253-283 | `update` keeps a valid instance valid, whether it succeeds or raises. |
| `Updates.UpdateWrites` | pydantic_dict/base_model_dictionary.py:258-283 | After a successful `update`, written keys read back their values (validated, when validation is on) and every other key is unchanged. |
| `Updates.UpdateClearsUnset` | pydantic_dict/base_model_dictionary.py:258-283 | After a successful `update`, `_unset` loses the keys written with non-Sentinel values (validation on) or every written key (validation off). |
| `Updates.UpdateIsUnsafeWithoutValidation` | pydantic_dict/base_model_dictionary.py:258-264 | With validation off, `update` equals `update_unsafe` whenever the extra check passes. Where it fails, `update` raises ValueError and `update_unsafe` succeeds. |
| `Updates.FrozenRejectsEveryMutation` | pydantic_dict/base_model_dictionary.py:38-54 | With `frozen` on or `allow_mutation` off, `del`, `pop`, `popitem`, `clear`, `setdefault`, `update` (even with no pairs) and `update_unsafe` raise TypeError and change nothing. |

## Left out

- Pydantic's construction and coercion in `BaseModel.__init__`: the model starts from the storage pydantic has built, given to `Init`. It does not derive field order or defaults.
- The body of pydantic's `BaseModel.__setattr__`: it is reduced to the three outcomes of `WriteGate`. Private and dunder attributes, `final` fields, root validators and `__fields_set__` are not modelled.
- Field validation and coercion: these are an uninterpreted `Validator`.
- `__eq__`, `__hash__`, `dict()`, `json()`, `copy` and the serialisation round-trips: these are pydantic behaviour.
- `_sentinel.py` and `exceptions.py` are not part of this model. The Sentinel is a value constructor. The `extra is None` branch (UnreachableException) is where `ResolvePolicy` yields no policy.
- `lru_cache` on `getclsattr`: Dafny functions are deterministic, so repeated calls agree by construction. The cache storage is not modelled.
- `getattr` on non-class objects: plain values have no attributes here, so a path through a string or flag resolves nowhere.
- The iteration order of `__iter__`'s set: `Iter` is a set.
- `copy.deepcopy` in `update`: the snapshot is the previous immutable value.
- Python `==` on stored values: it is datatype equality.
- `ModelDict.SetAttrPreservesValid`: assumes `KeepsSentinel`, a validator that never turns the Sentinel into another value. Without it, writing the Sentinel to an unset field under validation could store something else while the field stays in `_unset`. The same hypothesis appears only where the invariant is concluded: `Updates.SetEachPreservesValid`, `Updates.UpdatePreservesValid` and the last clause of `ModelDict.SetDefault`. The outcome lemmas (`ModelDict.SetAttrOutcome`, `Updates.SetEachOutcome`, `Updates.UpdateRaises`, `Updates.UpdateAllOrNothing`, `Updates.UpdateValidationError`) do not need it.
- `Updates.UpdateWrites`: states contents, not positions, for the validated branch. `ModelDict.SetAttrOrder` gives positions one write at a time.
- `Updates.Update`, `Updates.UpdateUnsafe`: require the pairs to have distinct keys, as the `Dict` argument guarantees.
- `ModelDict.Init`: requires storage with distinct keys, as `__dict__` guarantees.
- `ModelDict.FromKeysOnFieldlessClass`: covers classes without declared fields whose `extra` is `allow` only. With declared fields, or with `ignore` or `forbid` (where pydantic's constructor drops the keyword extras or raises), the result depends on pydantic's construction.
- `Policies.ResolvePolicy`: a `frozen`, `allow_mutation` or `validate_assignment` value that is not a bool, and an `extra` that names no mode, yield no policy. The source instead applies `|` and `not` to whatever `getclsattr` returns, tests `validate_assignment` for truthiness, and compares `extra` with `Extra.allow`. Python truthiness of arbitrary objects is not modelled.

=== FILE: class_attr.dfy ===
/** `getclsattr(cls, name, default)`: look a dotted option such as
    `"Config.extra"` up on every class of a method resolution order and let the
    most derived class on which the whole path resolves supply the answer. */
module ClassAttr {
  import opened Results

  /** A Python object as `getattr` sees it: a flag, a string, or an object
      (a class) whose attributes are named. A class's `attrs` are everything
      `getattr` finds on it, inherited attributes included. */
  datatype Attr = Bool(b: bool) | Str(s: string) | Class(attrs: map<string, Attr>)

  /** `s.split(".")`. */
  function Split(s: string): (r: seq<string>)
    ensures |r| > 0
    ensures forall i :: 0 <= i < |r| ==> '.' !in r[i]
  {
    if |s| == 0 then [""]
    else
      var rest := Split(s[1..]);
      if s[0] == '.' then [""] + rest
      else [[s[0]] + rest[0]] + rest[1..]
  }

  /** `".".join(segs)`. */
  function Join(segs: seq<string>): string
    requires |segs| > 0
  {
    if |segs| == 1 then segs[0] else segs[0] + "." + Join(segs[1..])
  }

  /** Splitting on dots and joining the segments back gives the name. */
  lemma {:induction false} JoinSplit(s: string)
    ensures Join(Split(s)) == s
  {
    if |s| > 0 {
      var rest := Split(s[1..]);
      JoinSplit(s[1..]);
      if s[0] == '.' {
        assert Join([""] + rest) == "" + "." + Join(rest);
        assert s == [s[0]] + s[1..];
      } else {
        var segs := [[s[0]] + rest[0]] + rest[1..];
        if |rest| == 1 {
          assert Join(segs) == [s[0]] + rest[0];
        } else {
          assert segs[1..] == rest[1..];
          assert Join(segs) == ([s[0]] + rest[0]) + "." + Join(rest[1..]);
          assert Join(rest) == rest[0] + "." + Join(rest[1..]);
        }
        assert s == [s[0]] + s[1..];
      }
    }
  }

  /** A dot-free prefix merges into the first segment of what follows it. */
  lemma {:induction false} SplitPrefix(a: string, t: string)
    requires '.' !in a
    ensures Split(a + t) == [a + Split(t)[0]] + Split(t)[1..]
    decreases |a|
  {
    if |a| > 0 {
      assert (a + t)[1..] == a[1..] + t;
      assert (a + t)[0] == a[0];
      SplitPrefix(a[1..], t);
      assert [a[0]] + (a[1..] + Split(t)[0]) == a + Split(t)[0];
    } else {
      var r := Split(t);
      assert a + t == t;
      assert a + r[0] == r[0];
      assert r == [r[0]] + r[1..];
    }
  }

  /** Joining dot-free segments and splitting the result gives the segments
      back: every dotted option path is read as the path it was written as. */
  lemma {:induction false} SplitJoin(segs: seq<string>)
    requires |segs| > 0
    requires forall i :: 0 <= i < |segs| ==> '.' !in segs[i]
    ensures Split(Join(segs)) == segs
  {
    if |segs| == 1 {
      SplitPrefix(segs[0], "");
      assert segs[0] + "" == segs[0];
    } else {
      var tail := Join(segs[1..]);
      SplitJoin(segs[1..]);
      SplitPrefix(segs[0], "." + tail);
      assert ("." + tail)[1..] == tail;
      assert Split("." + tail) == [""] + segs[1..];
      assert segs[0] + "" == segs[0];
      assert segs[0] + "." + tail == segs[0] + ("." + tail);
      assert segs == [segs[0]] + segs[1..];
    }
  }

  /** `getattr(o, n1)`, then `getattr(_, n2)`, ... stopping at the first
      attribute that is missing. Plain values have no attributes here. */
  function Walk(o: Attr, needles: seq<string>): Option<Attr> {
    if |needles| == 0 then Some(o)
    else match o
      case Class(attrs) =>
        if needles[0] in attrs then Walk(attrs[needles[0]], needles[1..]) else None
      case _ => None
  }

  /** What one class contributes to the scan: the object at the end of the
      path when every segment resolves, nothing otherwise. An empty path never
      reaches its last segment and contributes nothing. */
  function Resolve(cls: Attr, needles: seq<string>): Option<Attr> {
    if |needles| == 0 then None else Walk(cls, needles)
  }

  function Reverse<T>(s: seq<T>): (r: seq<T>)
    ensures |r| == |s|
  {
    if |s| == 0 then [] else Reverse(s[1..]) + [s[0]]
  }

  /** The loop over `super_classes[::-1]`: classes are visited base first and
      each class that resolves the path overwrites the running result. */
  function Scan(classes: seq<Attr>, needles: seq<string>, acc: Option<Attr>): Option<Attr>
    decreases |classes|
  {
    if |classes| == 0 then acc
    else
      var next := match Resolve(classes[0], needles)
        case Some(v) => Some(v)
        case None => acc;
      Scan(classes[1..], needles, next)
  }

  /** Reference reading: the first class of the MRO (the most derived one)
      on which the whole path resolves. */
  function FirstMatch(mro: seq<Attr>, needles: seq<string>): Option<Attr>
    decreases |mro|
  {
    if |mro| == 0 then None
    else if Resolve(mro[0], needles).Some? then Resolve(mro[0], needles)
    else FirstMatch(mro[1..], needles)
  }

  lemma {:induction false} ScanAppend(a: seq<Attr>, b: seq<Attr>, needles: seq<string>, acc: Option<Attr>)
    ensures Scan(a + b, needles, acc) == Scan(b, needles, Scan(a, needles, acc))
    decreases |a|
  {
    if |a| > 0 {
      assert (a + b)[1..] == a[1..] + b;
      assert (a + b)[0] == a[0];
      var next := match Resolve(a[0], needles) case Some(v) => Some(v) case None => acc;
      ScanAppend(a[1..], b, needles, next);
    } else {
      assert a + b == b;
    }
  }

  /** Scanning the reversed MRO keeps the LAST class that resolves, which is
      the FIRST such class of the MRO: the most derived definition wins. A
      class on which a segment is missing leaves the running result as it was,
      so the starting value survives only when no class resolves the path. */
  lemma {:induction false} ScanIsMostDerivedWins(mro: seq<Attr>, needles: seq<string>, acc: Option<Attr>)
    ensures Scan(Reverse(mro), needles, acc) ==
      (if FirstMatch(mro, needles).Some? then FirstMatch(mro, needles) else acc)
    decreases |mro|
  {
    if |mro| > 0 {
      ScanAppend(Reverse(mro[1..]), [mro[0]], needles, acc);
      ScanIsMostDerivedWins(mro[1..], needles, acc);
    }
  }

  /** Removing a class on which the path does not resolve from the MRO
      changes no lookup: such a class contributes nothing. */
  lemma {:induction false} UnresolvedClassContributesNothing(mro: seq<Attr>, i: nat, needles: seq<string>)
    requires i < |mro| && Resolve(mro[i], needles).None?
    ensures FirstMatch(mro[..i] + mro[i + 1..], needles) == FirstMatch(mro, needles)
    decreases |mro|
  {
    if i == 0 {
      assert mro[..0] + mro[1..] == mro[1..];
    } else {
      UnresolvedClassContributesNothing(mro[1..], i - 1, needles);
      assert mro[1..][..i - 1] + mro[1..][i..] == (mro[..i] + mro[i + 1..])[1..];
      assert (mro[..i] + mro[i + 1..])[0] == mro[0];
    }
  }

  /** `getclsattr(cls, name, default)` with `cls.__mro__` given as `mro`
      (most derived class first) and `default` absent when the caller
      supplied none. */
  function GetClsAttr(mro: seq<Attr>, name: string, default: Option<Attr>): (r: Result<Attr>)
    ensures FirstMatch(mro, Split(name)).Some? ==> r == Ok(FirstMatch(mro, Split(name)).value)
    ensures FirstMatch(mro, Split(name)).None? && default.Some? ==> r == Ok(default.value)
    ensures FirstMatch(mro, Split(name)).None? && default.None? ==> r == Err(AttributeError)
  {
    var needles := Split(name);
    var result := Scan(Reverse(mro), needles, None);
    ScanIsMostDerivedWins(mro, needles, None);
    if result.Some? then Ok(result.value)
    else if default.Some? then Ok(default.value)
    else Err(AttributeError)
  }
}

=== FILE: model_dict.dfy ===
/** `BaseModelDict`: a pydantic model whose `__dict__` is also exposed through
    the built-in `dict` interface. Declared fields and extras share one ordered
    storage; declared fields whose default is the `Unset` factory start out
    holding the Sentinel and are hidden from the dict view until written. */
module ModelDict {
  import opened Results
  import opened Storage
  import opened Policies

  /** How a declared field obtains its default. */
  datatype FieldDefault = Required | Constant(value: Value) | UnsetFactory | OtherFactory

  datatype FieldDecl = FieldDecl(name: Key, default: FieldDefault)

  /** What a subclass fixes once: its declared fields (`__fields__`), those of
      them whose default is `Unset` (`_default_unset`), and its policy. */
  datatype Schema = Schema(fields: set<Key>, defaultUnset: set<Key>, policy: Policy)

  /** One model instance: its `__dict__` and its `_unset` set. */
  datatype Instance = Instance(schema: Schema, storage: Entries, unset: set<Key>)

  /** Outcome of a dict method: the instance afterwards, and the value
      returned or the exception raised. */
  datatype Step<T> = Step(after: Instance, out: Result<T>)

  /** pydantic's field validation, left uninterpreted: the value to store, or
      None when it raises a ValidationError. */
  type Validator = (Key, Value) -> Option<Value>

  predicate DistinctNames(decls: seq<FieldDecl>) {
    forall i, j :: 0 <= i < j < |decls| ==> decls[i].name != decls[j].name
  }

  /** `__init_subclass__`: record which declared fields default to `Unset`. */
  function DeclareSchema(decls: seq<FieldDecl>, policy: Policy): (s: Schema)
    ensures s.defaultUnset <= s.fields
    ensures forall k :: k in s.fields <==> exists i :: 0 <= i < |decls| && decls[i].name == k
    ensures DistinctNames(decls) ==>
      forall i :: 0 <= i < |decls| ==> (decls[i].name in s.defaultUnset <==> decls[i].default == UnsetFactory)
    ensures s.policy == policy
  {
    Schema(set i | 0 <= i < |decls| :: decls[i].name,
           set i | 0 <= i < |decls| && decls[i].default == UnsetFactory :: decls[i].name,
           policy)
  }

  /** The invariant every public operation keeps: storage is a dict, every
      declared field is present, `_unset` only names default-unset fields and
      each of them holds the Sentinel. */
  predicate Valid(m: Instance) {
    && Unique(m.storage)
    && m.schema.defaultUnset <= m.schema.fields
    && (forall k :: k in m.schema.fields ==> k in Keys(m.storage))
    && m.unset <= m.schema.defaultUnset
    && (forall k :: k in m.unset ==> Find(m.storage, k) == Some(Sentinel))
  }

  /** Every unset field still has a storage entry: the part of `Valid` on
      which the outcome of a write depends. */
  predicate UnsetStored(m: Instance) {
    forall k :: k in m.unset ==> k in Keys(m.storage)
  }

  /** The validator never turns the Sentinel into another value. */
  ghost predicate KeepsSentinel(validate: Validator) {
    forall k :: validate(k, Sentinel) == None || validate(k, Sentinel) == Some(Sentinel)
  }

  /** `__init__` after pydantic has built `__dict__` (given here as `storage`):
      `_unset` becomes the default-unset fields whose stored value is the
      Sentinel. Looking up a default-unset field missing from storage raises. */
  function Init(s: Schema, storage: Entries): (r: Result<Instance>)
    requires Unique(storage)
    ensures r.Ok? <==> forall f :: f in s.defaultUnset ==> f in Keys(storage)
    ensures r.Err? ==> r.error == KeyError
    ensures r.Ok? ==> r.value.schema == s && r.value.storage == storage
    ensures r.Ok? ==> forall k :: k in r.value.unset <==> k in s.defaultUnset && Find(storage, k) == Some(Sentinel)
    ensures r.Ok? && s.defaultUnset <= s.fields && (forall f :: f in s.fields ==> f in Keys(storage)) ==> Valid(r.value)
  {
    if forall f :: f in s.defaultUnset ==> f in Keys(storage) then
      Ok(Instance(s, storage, set f | f in s.defaultUnset && Find(storage, f) == Some(Sentinel)))
    else Err(KeyError)
  }

  // ---------------------------------------------------------------- reads

  /** `_field_unset`. */
  predicate FieldUnset(m: Instance, k: Key) {
    k in m.unset
  }

  /** `key in d`. */
  predicate Contains(m: Instance, k: Key) {
    if FieldUnset(m, k) then false else k in Keys(m.storage)
  }

  /** `d[key]`. */
  function GetItem(m: Instance, k: Key): Result<Value> {
    if FieldUnset(m, k) then Err(KeyError)
    else match Find(m.storage, k)
      case Some(v) => Ok(v)
      case None => Err(KeyError)
  }

  /** `len(d)`. */
  function Len(m: Instance): int {
    |m.storage| - |m.unset|
  }

  /** `iter(d)`: a set, so it carries no order. */
  function Iter(m: Instance): set<Key> {
    KeySet(m.storage) - m.unset
  }

  /** `d.get(key, default)`. */
  function Get(m: Instance, k: Key, default: Value): (r: Value)
    ensures Contains(m, k) ==> GetItem(m, k) == Ok(r)
    ensures !Contains(m, k) ==> r == default
  {
    if !Contains(m, k) then default else GetItem(m, k).value
  }

  /** The storage entries whose key is not unset, in storage order. */
  function Visible(m: Instance): Entries {
    Drop(m.storage, m.unset)
  }

  /** `d.keys()`, `d.items()`, `d.values()`. */
  function KeysView(m: Instance): seq<Key> { Keys(Visible(m)) }
  function ItemsView(m: Instance): Entries { Visible(m) }
  function ValuesView(m: Instance): seq<Value> { Values(Visible(m)) }

  /** The read operations agree with each other: `len` counts exactly the
      keys that `in`, `iter` and `keys()` report, `d[k]` succeeds exactly on
      those keys, and `items()`/`values()` pair each key of `keys()` with its
      current value, in storage order. */
  lemma ViewsAgree(m: Instance)
    requires Valid(m)
    ensures Len(m) == |KeysView(m)| == |Iter(m)|
    ensures forall k :: Contains(m, k) <==> k in Iter(m)
    ensures forall k :: Contains(m, k) <==> k in KeysView(m)
    ensures forall k :: GetItem(m, k).Ok? <==> Contains(m, k)
    ensures forall i :: 0 <= i < |KeysView(m)| ==> GetItem(m, KeysView(m)[i]) == Ok(ValuesView(m)[i])
    ensures forall i :: 0 <= i < |ItemsView(m)| ==> ItemsView(m)[i] == (KeysView(m)[i], ValuesView(m)[i])
  {
    var vis := Visible(m);
    DropFind(m.storage, m.unset);
    DropUnique(m.storage, m.unset);
    assert m.unset <= KeySet(m.storage);
    DropSize(m.storage, m.unset);
    UniqueSize(m.storage);
    assert |Iter(m)| == |KeySet(m.storage)| - |m.unset|;
    forall k ensures Contains(m, k) <==> k in KeysView(m) {
      assert Find(vis, k) == if k in m.unset then None else Find(m.storage, k);
    }
    forall i | 0 <= i < |vis| ensures GetItem(m, KeysView(m)[i]) == Ok(ValuesView(m)[i]) && vis[i] == (KeysView(m)[i], ValuesView(m)[i]) {
      KeysIndex(vis, i);
      FindAt(vis, i);
      assert Find(vis, vis[i].0) == if vis[i].0 in m.unset then None else Find(m.storage, vis[i].0);
    }
  }

  /** An unset field is invisible to the dict interface although its raw
      storage entry holds the Sentinel: `in` is false, `d[k]` raises KeyError,
      `get` returns the default, and `iter`, `keys()`, `items()` and
      `values()` skip it, so `len` is the storage size minus `|_unset|`. */
  lemma UnsetFieldInvisible(m: Instance, k: Key)
    requires Valid(m) && k in m.unset
    ensures Find(m.storage, k) == Some(Sentinel)
    ensures !Contains(m, k) && GetItem(m, k) == Err(KeyError)
    ensures forall d :: Get(m, k, d) == d
    ensures k !in Iter(m) && k !in KeysView(m)
    ensures forall i :: 0 <= i < |ItemsView(m)| ==> ItemsView(m)[i].0 != k
    ensures Len(m) == |m.storage| - |m.unset|
  {
    ViewsAgree(m);
    forall i | 0 <= i < |ItemsView(m)| ensures ItemsView(m)[i].0 != k {
      KeysIndex(ItemsView(m), i);
    }
  }

  /** `key in d` and `d[key]` read the raw storage entry unless the key is
      unset: `d[key]` returns the stored value exactly when `key in d`, and
      raises KeyError otherwise. */
  lemma ContainsAndGetItem(m: Instance, k: Key)
    ensures Contains(m, k) <==> k !in m.unset && Find(m.storage, k).Some?
    ensures Contains(m, k) ==> GetItem(m, k) == Ok(Find(m.storage, k).value)
    ensures !Contains(m, k) ==> GetItem(m, k) == Err(KeyError)
  {
  }

  /** `items()` and `keys()` keep exactly the storage entries whose key is not
      unset, in storage order. */
  lemma VisibleEntries(m: Instance)
    ensures Sublist(ItemsView(m), m.storage)
    ensures forall p :: p in ItemsView(m) <==> p in m.storage && p.0 !in m.unset
    ensures forall k :: k in KeysView(m) <==> k in Keys(m.storage) && k !in m.unset
  {
    DropSublist(m.storage, m.unset);
    DropMembers(m.storage, m.unset);
    DropFind(m.storage, m.unset);
    forall k ensures k in KeysView(m) <==> k in Keys(m.storage) && k !in m.unset {
      assert Find(Visible(m), k).Some? <==> k in KeysView(m);
    }
  }

  /** `iter(d)` yields the keys of `keys()`, without their order; on a valid
      instance no key is lost, so it has `len(d)` elements. */
  lemma IterIsKeysAsSet(m: Instance)
    ensures forall k :: k in Iter(m) <==> k in KeysView(m)
    ensures Valid(m) ==> |Iter(m)| == |KeysView(m)| == Len(m)
  {
    VisibleEntries(m);
    if Valid(m) { ViewsAgree(m); }
  }

  /** `values()` lists, in storage order, the value of each entry of
      `items()`, and each of those is a stored entry of a key that is not
      unset. */
  lemma ValuesFollowItems(m: Instance)
    ensures |ValuesView(m)| == |ItemsView(m)|
    ensures forall i :: 0 <= i < |ValuesView(m)| ==>
      ValuesView(m)[i] == ItemsView(m)[i].1 && ItemsView(m)[i] in m.storage && ItemsView(m)[i].0 !in m.unset
  {
    VisibleEntries(m);
    forall i | 0 <= i < |ValuesView(m)|
      ensures ValuesView(m)[i] == ItemsView(m)[i].1 && ItemsView(m)[i] in m.storage && ItemsView(m)[i].0 !in m.unset
    {
      KeysIndex(ItemsView(m), i);
      assert ItemsView(m)[i] in ItemsView(m);
    }
  }

  // ------------------------------------------------------------ deletions

  /** Deleting a key that is not a declared field keeps the invariant. */
  lemma RemoveExtraKeepsValid(m: Instance, k: Key)
    requires k !in m.schema.fields
    ensures Valid(m) ==> Valid(m.(storage := Remove(m.storage, k)))
  {
    if Valid(m) {
      var r := Remove(m.storage, k);
      forall f | f in m.schema.fields ensures f in Keys(r) {
        assert Find(m.storage, f).Some?;
        assert Find(r, f) == Find(m.storage, f);
      }
      forall u | u in m.unset ensures Find(r, u) == Some(Sentinel) {
        assert Find(r, u) == Find(m.storage, u);
      }
    }
  }

  /** `del d[key]`: only extras can be deleted. */
  function DelItem(m: Instance, k: Key): (r: Step<()>)
    ensures m.schema.policy.DisallowsMutation() ==> r == Step(m, Err(TypeError))
    ensures !m.schema.policy.DisallowsMutation() && k in m.schema.fields ==> r == Step(m, Err(KeyError))
    ensures !m.schema.policy.DisallowsMutation() && k !in m.schema.fields && k !in Keys(m.storage) ==>
      r == Step(m, Err(KeyError))
    ensures r.out.Ok? <==> !m.schema.policy.DisallowsMutation() && k !in m.schema.fields && k in Keys(m.storage)
    ensures r.out.Ok? ==> r.after.schema == m.schema && r.after.unset == m.unset
    ensures r.out.Ok? ==> forall j :: Find(r.after.storage, j) == if j == k then None else Find(m.storage, j)
    ensures r.out.Ok? && Unique(m.storage) ==>
      exists i :: 0 <= i < |m.storage| && m.storage[i].0 == k && r.after.storage == m.storage[..i] + m.storage[i + 1..]
    ensures Valid(m) ==> Valid(r.after)
  {
    if m.schema.policy.DisallowsMutation() then Step(m, Err(TypeError))
    else if k in m.schema.fields then Step(m, Err(KeyError))
    else if k !in Keys(m.storage) then Step(m, Err(KeyError))
    else
      RemoveExtraKeepsValid(m, k);
      assert Unique(m.storage) ==>
        exists i :: 0 <= i < |m.storage| && m.storage[i].0 == k && Remove(m.storage, k) == m.storage[..i] + m.storage[i + 1..]
      by {
        if Unique(m.storage) { RemoveFound(m.storage, k); }
      }
      Step(m.(storage := Remove(m.storage, k)), Ok(()))
  }

  /** `d.pop(key[, default])`: a declared key always raises KeyError, set or
      unset, whatever the default; a missing key yields the default when one
      is given and leaves the instance alone. */
  function Pop(m: Instance, k: Key, default: Option<Value>): (r: Step<Value>)
    ensures m.schema.policy.DisallowsMutation() ==> r == Step(m, Err(TypeError))
    ensures !m.schema.policy.DisallowsMutation() && k in m.schema.fields ==> r == Step(m, Err(KeyError))
    ensures !m.schema.policy.DisallowsMutation() && k !in m.schema.fields && k !in Keys(m.storage) ==>
      r == Step(m, if default.Some? then Ok(default.value) else Err(KeyError))
    ensures !m.schema.policy.DisallowsMutation() && k !in m.schema.fields && k in Keys(m.storage) ==>
      && r.out == Ok(Find(m.storage, k).value)
      && r.after.schema == m.schema && r.after.unset == m.unset
      && forall j :: Find(r.after.storage, j) == if j == k then None else Find(m.storage, j)
    ensures !m.schema.policy.DisallowsMutation() && k !in m.schema.fields && k in Keys(m.storage) && Unique(m.storage) ==>
      exists i :: 0 <= i < |m.storage| && m.storage[i].0 == k && r.after.storage == m.storage[..i] + m.storage[i + 1..]
    ensures Valid(m) ==> Valid(r.after)
  {
    if m.schema.policy.DisallowsMutation() then Step(m, Err(TypeError))
    else if k in m.schema.fields then Step(m, Err(KeyError))
    else match Find(m.storage, k)
      case Some(v) =>
        RemoveExtraKeepsValid(m, k);
        assert Unique(m.storage) ==>
          exists i :: 0 <= i < |m.storage| && m.storage[i].0 == k && Remove(m.storage, k) == m.storage[..i] + m.storage[i + 1..]
        by {
          if Unique(m.storage) { RemoveFound(m.storage, k); }
        }
        Step(m.(storage := Remove(m.storage, k)), Ok(v))
      case None => if default.None? then Step(m, Err(KeyError)) else Step(m, Ok(default.value))
  }

  /** `d.popitem()`: removes and returns the EARLIEST non-declared entry in
      storage order; KeyError when every remaining entry is a declared field. */
  function PopItem(m: Instance): (r: Step<(Key, Value)>)
    ensures m.schema.policy.DisallowsMutation() ==> r == Step(m, Err(TypeError))
    ensures !m.schema.policy.DisallowsMutation() && (forall i :: 0 <= i < |m.storage| ==> m.storage[i].0 in m.schema.fields) ==>
      r == Step(m, Err(KeyError))
    ensures !m.schema.policy.DisallowsMutation() && (exists i :: 0 <= i < |m.storage| && m.storage[i].0 !in m.schema.fields) ==>
      r.out.Ok?
    ensures r.out.Ok? ==> r.after.schema == m.schema && r.after.unset == m.unset
    ensures r.out.Ok? ==> exists i :: (0 <= i < |m.storage| && m.storage[i] == r.out.value
      && m.storage[i].0 !in m.schema.fields
      && (forall j :: 0 <= j < i ==> m.storage[j].0 in m.schema.fields)
      && (Unique(m.storage) ==> r.after.storage == m.storage[..i] + m.storage[i + 1..]))
    ensures Valid(m) ==> Valid(r.after)
  {
    if m.schema.policy.DisallowsMutation() then Step(m, Err(TypeError))
    else match FirstOutside(m.storage, m.schema.fields)
      case None => Step(m, Err(KeyError))
      case Some(i) =>
        var (k, v) := m.storage[i];
        assert Unique(m.storage) ==> Remove(m.storage, k) == m.storage[..i] + m.storage[i + 1..] by {
          if Unique(m.storage) { RemoveAt(m.storage, i); }
        }
        RemoveExtraKeepsValid(m, k);
        Step(m.(storage := Remove(m.storage, k)), Ok((k, v)))
  }

  /** `d.clear()`: removes every key that is not a declared field; the
      declared fields keep their values and their relative order. */
  function Clear(m: Instance): (r: Step<()>)
    ensures m.schema.policy.DisallowsMutation() ==> r == Step(m, Err(TypeError))
    ensures !m.schema.policy.DisallowsMutation() ==>
      r.out.Ok? && r.after.schema == m.schema && r.after.unset == m.unset
    ensures !m.schema.policy.DisallowsMutation() ==>
      forall j :: Find(r.after.storage, j) == if j in m.schema.fields then Find(m.storage, j) else None
    ensures !m.schema.policy.DisallowsMutation() ==> Sublist(r.after.storage, m.storage)
    ensures Valid(m) ==> Valid(r.after)
  {
    if m.schema.policy.DisallowsMutation() then Step(m, Err(TypeError))
    else
      var gone := KeySet(m.storage) - m.schema.fields;
      DropFind(m.storage, gone);
      DropSublist(m.storage, gone);
      assert Unique(m.storage) ==> Unique(Drop(m.storage, gone)) by {
        if Unique(m.storage) { DropUnique(m.storage, gone); }
      }
      Step(m.(storage := Drop(m.storage, gone)), Ok(()))
  }

  /** After `clear()` the dict length is the number of declared fields that
      are not unset: nothing else is left. */
  lemma ClearLeavesDeclaredFields(m: Instance)
    requires Valid(m) && !m.schema.policy.DisallowsMutation()
    ensures Len(Clear(m).after) == |m.schema.fields| - |m.unset|
  {
    var ks := KeySet(m.storage);
    var gone := ks - m.schema.fields;
    assert m.schema.fields <= ks;
    DropSize(m.storage, gone);
    UniqueSize(m.storage);
    assert ks == gone + m.schema.fields;
    assert gone !! m.schema.fields;
    assert |ks| == |gone| + |m.schema.fields|;
  }

  // --------------------------------------------------------------- writes

  /** The value pydantic stores for a write: declared fields go through the
      validator when `validate_assignment` is on; extras are stored as given. */
  function Admitted(s: Schema, k: Key, v: Value, validate: Validator): Option<Value> {
    if s.policy.validateAssignment && k in s.fields then validate(k, v) else Some(v)
  }

  /** pydantic's `BaseModel.__setattr__`, reduced to the outcomes this core
      relies on: ValueError for an extra while extras are not allowed, then
      TypeError when mutation is disallowed, then ValidationError when the
      validator rejects; otherwise the value is assigned. */
  function WriteGate(s: Schema, e: Entries, k: Key, v: Value, validate: Validator): (r: Result<Entries>)
    ensures r.Ok? <==>
      (k in s.fields || s.policy.extra == Allow) && !s.policy.DisallowsMutation() && Admitted(s, k, v, validate).Some?
    ensures r.Ok? ==> forall j :: Find(r.value, j) == if j == k then Admitted(s, k, v, validate) else Find(e, j)
  {
    if k !in s.fields && s.policy.extra != Allow then Err(ValueError)
    else if s.policy.DisallowsMutation() then Err(TypeError)
    else match Admitted(s, k, v, validate)
      case None => Err(ValidationError)
      case Some(w) => Ok(Put(e, k, w))
  }

  /** `__setattr__` (and `__setitem__`, which calls it). Writing a non-Sentinel
      value to an unset field first pops the field, so the field lands at the
      end of storage whether the write succeeds (and the field leaves
      `_unset`) or fails (and the old value is put back). */
  function SetAttr(m: Instance, k: Key, v: Value, validate: Validator): (r: Step<()>)
    ensures r.after.schema == m.schema
    ensures r.out.Ok? ==> forall j :: Find(r.after.storage, j) == if j == k then Admitted(m.schema, k, v, validate) else Find(m.storage, j)
    ensures r.out.Ok? ==> r.after.unset == if v != Sentinel then m.unset - {k} else m.unset
    ensures r.out.Err? ==> r.after.unset == m.unset
    ensures r.out.Err? ==> forall j :: Find(r.after.storage, j) == Find(m.storage, j)
    ensures r.out.Err? && !(k in m.unset && v != Sentinel) ==> r.after == m
  {
    if k in m.unset && v != Sentinel then
      match Find(m.storage, k)
      case None => Step(m, Err(KeyError))
      case Some(prev) =>
        var popped := Remove(m.storage, k);
        match WriteGate(m.schema, popped, k, v, validate)
        case Ok(s) => Step(m.(storage := s, unset := m.unset - {k}), Ok(()))
        case Err(e) => Step(m.(storage := Put(popped, k, prev)), Err(e))
    else
      match WriteGate(m.schema, m.storage, k, v, validate)
      case Ok(s) => Step(m.(storage := s), Ok(()))
      case Err(e) => Step(m, Err(e))
  }

  /** Which exception a write raises, if any: the extra-fields check comes
      first, then immutability, then validation; nothing else can fail as
      long as every unset field is still stored. */
  lemma SetAttrOutcome(m: Instance, k: Key, v: Value, validate: Validator)
    requires UnsetStored(m)
    ensures SetAttr(m, k, v, validate).out == Err(ValueError) <==>
      k !in m.schema.fields && m.schema.policy.extra != Allow
    ensures SetAttr(m, k, v, validate).out == Err(TypeError) <==>
      (k in m.schema.fields || m.schema.policy.extra == Allow) && m.schema.policy.DisallowsMutation()
    ensures SetAttr(m, k, v, validate).out == Err(ValidationError) <==>
      (k in m.schema.fields || m.schema.policy.extra == Allow) && !m.schema.policy.DisallowsMutation()
      && Admitted(m.schema, k, v, validate).None?
    ensures SetAttr(m, k, v, validate).out.Ok? <==>
      (k in m.schema.fields || m.schema.policy.extra == Allow) && !m.schema.policy.DisallowsMutation()
      && Admitted(m.schema, k, v, validate).Some?
  {
  }

  /** Every write keeps each unset field stored, whatever the validator does. */
  lemma SetAttrKeepsUnsetStored(m: Instance, k: Key, v: Value, validate: Validator)
    requires UnsetStored(m)
    ensures UnsetStored(SetAttr(m, k, v, validate).after)
  {
    SetAttrOutcome(m, k, v, validate);
    var r := SetAttr(m, k, v, validate);
    forall u | u in r.after.unset ensures u in Keys(r.after.storage) {
      assert Find(m.storage, u).Some?;
    }
  }

  /** Where a write leaves the key: an unset field written with a non-Sentinel
      value moves to the end of storage, holding the new value on success and
      the Sentinel on failure; any other successful write keeps an existing
      key in place and appends a new one. */
  lemma SetAttrOrder(m: Instance, k: Key, v: Value, validate: Validator)
    requires Valid(m)
    ensures var r := SetAttr(m, k, v, validate);
      k in m.unset && v != Sentinel ==>
        r.after.storage == Remove(m.storage, k) + [(k, if r.out.Ok? then Admitted(m.schema, k, v, validate).value else Sentinel)]
    ensures var r := SetAttr(m, k, v, validate);
      r.out.Ok? && !(k in m.unset && v != Sentinel) && k in Keys(m.storage) ==> Keys(r.after.storage) == Keys(m.storage)
    ensures var r := SetAttr(m, k, v, validate);
      r.out.Ok? && k !in Keys(m.storage) ==> r.after.storage == m.storage + [(k, Admitted(m.schema, k, v, validate).value)]
  {
    if k in m.unset && v != Sentinel {
      assert k !in Keys(Remove(m.storage, k)) by {
        assert Find(Remove(m.storage, k), k).None?;
      }
    }
  }

  /** Every write keeps the instance invariant, provided the validator does
      not turn the Sentinel into something else. */
  lemma SetAttrPreservesValid(m: Instance, k: Key, v: Value, validate: Validator)
    requires Valid(m) && KeepsSentinel(validate)
    ensures Valid(SetAttr(m, k, v, validate).after)
  {
    var r := SetAttr(m, k, v, validate);
    assert Unique(r.after.storage) by {
      if k in m.unset && v != Sentinel {
        SetAttrOrder(m, k, v, validate);
        assert Unique(Remove(m.storage, k));
        assert k !in Keys(Remove(m.storage, k)) by {
          assert Find(Remove(m.storage, k), k).None?;
        }
        var w := if r.out.Ok? then Admitted(m.schema, k, v, validate).value else Sentinel;
        assert Put(Remove(m.storage, k), k, w) == r.after.storage;
      }
    }
    forall f | f in m.schema.fields ensures f in Keys(r.after.storage) {
      assert Find(m.storage, f).Some?;
    }
    forall u | u in r.after.unset ensures Find(r.after.storage, u) == Some(Sentinel) {
      assert Find(m.storage, u) == Some(Sentinel);
      if r.out.Ok? && u == k {
        assert v == Sentinel;
        assert m.schema.policy.validateAssignment && k in m.schema.fields ==> validate(k, Sentinel) == Some(Sentinel);
      }
    }
  }

  /** An unset field moved to the end of storage and taken out of `_unset`
      becomes the last visible key. */
  lemma RevealedFieldComesLast(m: Instance, after: Instance, k: Key, w: Value)
    requires Valid(m) && k in m.unset
    requires after.storage == Remove(m.storage, k) + [(k, w)] && after.unset == m.unset - {k}
    ensures Contains(after, k) && GetItem(after, k) == Ok(w)
    ensures Len(after) == Len(m) + 1
    ensures KeysView(after) == KeysView(m) + [k]
  {
    MoveToEndKeys(m.storage, k, w, m.unset);
    assert Len(after) == Len(m) + 1 by {
      MoveToEndSize(m.storage, k, w);
      assert |after.unset| == |m.unset| - 1;
    }
    assert Find(after.storage, k) == Some(w) by {
      assert Find(Remove(m.storage, k), k).None?;
      FindAppended(Remove(m.storage, k), k, w);
    }
  }

  /** Setting an unset field makes it visible: `len` grows by one, `d[k]`
      returns the stored value, and the key appears LAST in `keys()`, behind
      every key that was visible before. */
  lemma SettingUnsetFieldAppendsIt(m: Instance, k: Key, v: Value, validate: Validator)
    requires Valid(m) && k in m.unset && v != Sentinel
    requires SetAttr(m, k, v, validate).out.Ok?
    ensures var after := SetAttr(m, k, v, validate).after;
      && Contains(after, k)
      && GetItem(after, k) == Ok(Admitted(m.schema, k, v, validate).value)
      && Len(after) == Len(m) + 1
      && KeysView(after) == KeysView(m) + [k]
  {
    var after := SetAttr(m, k, v, validate).after;
    var w := Admitted(m.schema, k, v, validate).value;
    SetAttrOrder(m, k, v, validate);
    RevealedFieldComesLast(m, after, k, w);
  }

  /** `d.setdefault(key, default)`: the current value when `d[key]` succeeds;
      otherwise the extra-fields check runs, even for a declared field that is
      merely unset, and only then is `default` written, as by `d[key] =
      default`, and returned. */
  function SetDefault(m: Instance, k: Key, default: Value, validate: Validator): (r: Step<Value>)
    ensures r.after.schema == m.schema
    ensures m.schema.policy.DisallowsMutation() ==> r == Step(m, Err(TypeError))
    ensures !m.schema.policy.DisallowsMutation() && GetItem(m, k).Ok? ==> r == Step(m, Ok(GetItem(m, k).value))
    ensures !m.schema.policy.DisallowsMutation() && GetItem(m, k).Err? && m.schema.policy.extra != Allow ==>
      r == Step(m, Err(ValueError))
    ensures r.out.Ok? && GetItem(m, k).Err? ==> r.out.value == default
    ensures r.out.Ok? ==> forall j :: j != k ==> Find(r.after.storage, j) == Find(m.storage, j)
    ensures r.out.Err? ==> forall j :: Find(r.after.storage, j) == Find(m.storage, j)
    ensures (Valid(m) && !m.schema.policy.DisallowsMutation() && m.schema.policy.extra == Allow
      && k !in m.schema.fields && !Contains(m, k)) ==>
      && r.out == Ok(default) && r.after.storage == m.storage + [(k, default)]
      && GetItem(r.after, k) == Ok(default) && Len(r.after) == Len(m) + 1
    ensures (Valid(m) && !m.schema.policy.DisallowsMutation() && m.schema.policy.extra == Allow
      && k in m.unset && default != Sentinel) ==>
      && (r.out.Ok? <==> Admitted(m.schema, k, default, validate).Some?)
      && r.after.storage ==
           Remove(m.storage, k) + [(k, if r.out.Ok? then Admitted(m.schema, k, default, validate).value else Sentinel)]
    ensures (Valid(m) && !m.schema.policy.DisallowsMutation() && m.schema.policy.extra == Allow
      && k in m.unset && default != Sentinel && r.out.Ok?) ==>
      GetItem(r.after, k) == Ok(Admitted(m.schema, k, default, validate).value) && KeysView(r.after) == KeysView(m) + [k]
    ensures (Valid(m) && !m.schema.policy.DisallowsMutation() && m.schema.policy.extra == Allow
      && k in m.unset && default != Sentinel && r.out.Err?) ==>
      r.out == Err(ValidationError) && r.after.unset == m.unset
    ensures (Valid(m) && !m.schema.policy.DisallowsMutation() && m.schema.policy.extra == Allow
      && k in m.unset && default == Sentinel) ==>
      && (r.out.Ok? <==> Admitted(m.schema, k, Sentinel, validate).Some?)
      && (r.out.Err? ==> r.out == Err(ValidationError))
      && Keys(r.after.storage) == Keys(m.storage) && r.after.unset == m.unset
      && (r.out.Ok? ==> Find(r.after.storage, k) == Admitted(m.schema, k, Sentinel, validate))
    ensures Valid(m) && KeepsSentinel(validate) ==> Valid(r.after)
  {
    if m.schema.policy.DisallowsMutation() then Step(m, Err(TypeError))
    else match GetItem(m, k)
      case Ok(v) => Step(m, Ok(v))
      case Err(_) =>
        if m.schema.policy.extra != Allow then Step(m, Err(ValueError))
        else
          var w := SetAttr(m, k, default, validate);
          assert Valid(m) && KeepsSentinel(validate) ==> Valid(w.after) by {
            if Valid(m) && KeepsSentinel(validate) { SetAttrPreservesValid(m, k, default, validate); }
          }
          assert Valid(m) && k in m.unset && default != Sentinel ==>
            && (w.out.Ok? <==> Admitted(m.schema, k, default, validate).Some?)
            && (w.out.Err? ==> w.out == Err(ValidationError))
            && w.after.storage ==
                 Remove(m.storage, k) + [(k, if w.out.Ok? then Admitted(m.schema, k, default, validate).value else Sentinel)]
            && (w.out.Ok? ==>
                  GetItem(w.after, k) == Ok(Admitted(m.schema, k, default, validate).value)
                  && KeysView(w.after) == KeysView(m) + [k]) by {
            if Valid(m) && k in m.unset && default != Sentinel {
              SetAttrOutcome(m, k, default, validate);
              SetAttrOrder(m, k, default, validate);
              if w.out.Ok? { SettingUnsetFieldAppendsIt(m, k, default, validate); }
            }
          }
          assert Valid(m) && k in m.unset && default == Sentinel ==>
            && (w.out.Ok? <==> Admitted(m.schema, k, Sentinel, validate).Some?)
            && (w.out.Err? ==> w.out == Err(ValidationError))
            && Keys(w.after.storage) == Keys(m.storage) by {
            if Valid(m) && k in m.unset && default == Sentinel {
              SetAttrOutcome(m, k, default, validate);
              SetAttrOrder(m, k, default, validate);
            }
          }
          Step(w.after, if w.out.Ok? then Ok(default) else Err(w.out.error))
  }

  // ---------------------------------------------------------- construction

  /** The keyword arguments `fromkeys` hands to the constructor:
      `{k: value for k in keys}`. */
  function FromKeysArgs(keys: seq<Key>, value: Value): (kw: Entries)
    ensures Unique(kw)
    ensures forall j :: Find(kw, j) == if j in keys then Some(value) else None
  {
    if |keys| == 0 then []
    else
      var init := keys[..|keys| - 1];
      assert keys == init + [keys[|keys| - 1]];
      Put(FromKeysArgs(init, value), keys[|keys| - 1], value)
  }

  /** The keyword arguments of `fromkeys` name each given key once. */
  lemma FromKeysArgsKeys(keys: seq<Key>, value: Value)
    ensures KeySet(FromKeysArgs(keys, value)) == set k | k in keys
    ensures |FromKeysArgs(keys, value)| == |set k | k in keys|
  {
    var kw := FromKeysArgs(keys, value);
    forall j ensures j in KeySet(kw) <==> j in keys {
      assert Find(kw, j) == if j in keys then Some(value) else None;
    }
    UniqueSize(kw);
  }

  /** `fromkeys(keys, v)` on a class without declared fields that allows
      extras, so that its constructor stores every keyword argument as an
      extra: the length is the number of distinct keys and each of them maps
      to `v`. */
  lemma FromKeysOnFieldlessClass(s: Schema, keys: seq<Key>, value: Value)
    requires s.fields == {} && s.defaultUnset <= s.fields && s.policy.extra == Allow
    ensures Init(s, FromKeysArgs(keys, value)).Ok?
    ensures var m := Init(s, FromKeysArgs(keys, value)).value;
      Len(m) == |set k | k in keys| && forall k :: k in keys ==> Get(m, k, Null) == value
  {
    var kw := FromKeysArgs(keys, value);
    assert s.defaultUnset == {};
    var m := Init(s, kw).value;
    assert m.unset == {};
    FromKeysArgsKeys(keys, value);
    forall k | k in keys ensures Get(m, k, Null) == value {
      assert Find(kw, k) == Some(value);
      assert Contains(m, k);
    }
  }
}

=== FILE: policy.dfy ===
/** The mutation policy of a `BaseModelDict` subclass, resolved option by
    option from the `Config` classes along its MRO. */
module Policies {
  import opened Results
  import opened ClassAttr

  /** `Config.extra`. */
  datatype Extra = Allow | Ignore | Forbid

  datatype Policy = Policy(frozen: bool, allowMutation: bool, extra: Extra, validateAssignment: bool) {

    /** `_raise_type_error_if_immutable`: `Config.frozen or not
        Config.allow_mutation`, checked before anything else by every guarded
        dict method. */
    predicate DisallowsMutation() {
      frozen || !allowMutation
    }
  }

  /** The dotted name of a `Config` option. */
  function OptionName(x: string): string {
    "Config." + x
  }

  const FrozenOption := OptionName("frozen")
  const AllowMutationOption := OptionName("allow_mutation")
  const ExtraOption := OptionName("extra")
  const ValidateAssignmentOption := OptionName("validate_assignment")

  const FrozenPath := ["Config", "frozen"]
  const AllowMutationPath := ["Config", "allow_mutation"]
  const ExtraPath := ["Config", "extra"]
  const ValidateAssignmentPath := ["Config", "validate_assignment"]

  /** A two-segment dotted name splits into its two segments. */
  lemma SplitTwo(a: string, b: string)
    requires '.' !in a && '.' !in b
    ensures Split(a + "." + b) == [a, b]
  {
    SplitJoin([a, b]);
    assert Join([a, b]) == a + "." + Join([b]);
  }

  /** Each option name splits into the path it was written as. */
  lemma OptionPath(x: string)
    requires '.' !in x
    ensures Split(OptionName(x)) == ["Config", x]
  {
    assert '.' !in "Config";
    assert OptionName(x) == "Config" + "." + x;
    SplitTwo("Config", x);
  }

  lemma FrozenPathSplits()
    ensures Split(FrozenOption) == FrozenPath
  {
    OptionPath("frozen");
  }
  lemma AllowMutationPathSplits()
    ensures Split(AllowMutationOption) == AllowMutationPath
  {
    OptionPath("allow_mutation");
  }
  lemma ExtraPathSplits()
    ensures Split(ExtraOption) == ExtraPath
  {
    OptionPath("extra");
  }
  lemma ValidateAssignmentPathSplits()
    ensures Split(ValidateAssignmentOption) == ValidateAssignmentPath
  {
    OptionPath("validate_assignment");
  }

  lemma ReadOption(mro: seq<Attr>, name: string, path: seq<string>, default: Option<Attr>)
    requires Split(name) == path
    ensures GetClsAttr(mro, name, default) ==
      if FirstMatch(mro, path).Some? then Ok(FirstMatch(mro, path).value)
      else if default.Some? then Ok(default.value)
      else Err(AttributeError)
  {
  }

  /** The `Extra` member a `Config.extra` string names, if any. */
  function ExtraOf(a: Attr): Option<Extra> {
    match a
    case Str(s) =>
      if s == "allow" then Some(Allow)
      else if s == "ignore" then Some(Ignore)
      else if s == "forbid" then Some(Forbid)
      else None
    case _ => None
  }

  /** An option that is either declared nowhere or declared as a flag. */
  predicate FlagOrAbsent(o: Option<Attr>) {
    o.None? || o.value.Bool?
  }

  /** The policy `getclsattr` yields for a class with the given MRO, with the
      defaults the guards pass: `frozen` False, `allow_mutation` True,
      `validate_assignment` False, and no default for `extra`. None stands for
      an `extra` that resolves nowhere (the unreachable branch of the
      extra-fields guard) and for option values outside what this model
      carries: a flag that is not a bool, or an `extra` that names no mode. */
  function ResolvePolicy(mro: seq<Attr>): (r: Option<Policy>)
    ensures r.Some? <==>
      FlagOrAbsent(FirstMatch(mro, FrozenPath)) && FlagOrAbsent(FirstMatch(mro, AllowMutationPath))
      && FlagOrAbsent(FirstMatch(mro, ValidateAssignmentPath))
      && FirstMatch(mro, ExtraPath).Some? && ExtraOf(FirstMatch(mro, ExtraPath).value).Some?
    ensures r.Some? ==> (r.value.frozen <==> FirstMatch(mro, FrozenPath) == Some(Bool(true)))
    ensures r.Some? ==> (r.value.allowMutation <==> FirstMatch(mro, AllowMutationPath) != Some(Bool(false)))
    ensures r.Some? ==> (r.value.validateAssignment <==> FirstMatch(mro, ValidateAssignmentPath) == Some(Bool(true)))
    ensures r.Some? ==> ExtraOf(FirstMatch(mro, ExtraPath).value) == Some(r.value.extra)
  {
    FrozenPathSplits();
    AllowMutationPathSplits();
    ExtraPathSplits();
    ValidateAssignmentPathSplits();
    ReadOption(mro, FrozenOption, FrozenPath, Some(Bool(false)));
    ReadOption(mro, AllowMutationOption, AllowMutationPath, Some(Bool(true)));
    ReadOption(mro, ExtraOption, ExtraPath, None);
    ReadOption(mro, ValidateAssignmentOption, ValidateAssignmentPath, Some(Bool(false)));
    var frozen := GetClsAttr(mro, FrozenOption, Some(Bool(false)));
    var allowMutation := GetClsAttr(mro, AllowMutationOption, Some(Bool(true)));
    var extra := GetClsAttr(mro, ExtraOption, None);
    var validate := GetClsAttr(mro, ValidateAssignmentOption, Some(Bool(false)));
    if frozen.Ok? && frozen.value.Bool? && allowMutation.Ok? && allowMutation.value.Bool?
       && validate.Ok? && validate.value.Bool? && extra.Ok? && ExtraOf(extra.value).Some?
    then Some(Policy(frozen.value.b, allowMutation.value.b, ExtraOf(extra.value).value, validate.value.b))
    else None
  }

  /** Per-setting inheritance: a subclass whose `Config` sets only
      `validate_assignment` keeps every other setting of its bases, `extra`
      included. */
  lemma SubclassOverridesOnlyItsSetting(sub: Attr, bases: seq<Attr>)
    ensures && ResolvePolicy(bases).Some?
            && Resolve(sub, ValidateAssignmentPath) == Some(Bool(true))
            && Resolve(sub, FrozenPath).None? && Resolve(sub, AllowMutationPath).None?
            && Resolve(sub, ExtraPath).None?
      ==> ResolvePolicy([sub] + bases) == Some(ResolvePolicy(bases).value.(validateAssignment := true))
  {
  }
}

=== FILE: results.dfy ===
/** Outcome types shared by the whole model: the Python exceptions the core
    raises, an Option for "maybe a value" and a Result for "a value or the
    exception that replaced it". */
module Results {

  /** The exception classes the dict-over-a-record protocol can raise. */
  datatype Error =
    | TypeError        // mutation of an immutable (frozen) model
    | ValueError       // extra field written while `Config.extra` is not `allow`
    | KeyError         // missing, unset or protected key
    | ValidationError  // the field validator rejected a value
    | AttributeError   // a dotted class option resolved nowhere and had no default

  datatype Option<+T> = None | Some(value: T)

  datatype Result<+T> = Ok(value: T) | Err(error: Error)
}

=== FILE: storage.dfy ===
/** The instance's `__dict__`: an insertion-ordered association list from
    attribute names to values. Declared fields and extras share it, exactly as
    they share one Python dict. Only the dict primitives the core relies on are
    defined here: lookup, assignment (in place for an existing key, appended
    for a new one), removal, and `dict.update`. */
module Storage {
  import opened Results

  type Key = string

  /** Values stored under a key. `Sentinel` is the distinguished object that
      an `Unset` field default produces; `Null` is Python's `None`. */
  datatype Value = Sentinel | Null | Data(text: string)

  type Entries = seq<(Key, Value)>

  /** Keys in storage order. */
  function Keys(e: Entries): (ks: seq<Key>)
    ensures |ks| == |e|
  {
    if |e| == 0 then [] else [e[0].0] + Keys(e[1..])
  }

  /** Values in storage order. */
  function Values(e: Entries): (vs: seq<Value>)
    ensures |vs| == |e|
  {
    if |e| == 0 then [] else [e[0].1] + Values(e[1..])
  }

  function KeySet(e: Entries): set<Key> {
    set k | k in Keys(e)
  }

  /** A Python dict never holds a key twice. */
  predicate Unique(e: Entries) {
    |e| == 0 || (e[0].0 !in Keys(e[1..]) && Unique(e[1..]))
  }

  lemma {:induction false} KeysIndex(e: Entries, i: nat)
    requires i < |e|
    ensures Keys(e)[i] == e[i].0 && Values(e)[i] == e[i].1
    decreases |e|
  {
    if i > 0 {
      KeysIndex(e[1..], i - 1);
    }
  }

  lemma {:induction false} KeysAppend(a: Entries, b: Entries)
    ensures Keys(a + b) == Keys(a) + Keys(b)
    ensures Values(a + b) == Values(a) + Values(b)
    decreases |a|
  {
    if |a| > 0 {
      assert (a + b)[1..] == a[1..] + b;
      KeysAppend(a[1..], b);
    } else {
      assert a + b == b;
    }
  }

  /** `d.get(k)`: the value stored under `k`, if any. */
  function Find(e: Entries, k: Key): (r: Option<Value>)
    ensures r.Some? <==> k in Keys(e)
  {
    if |e| == 0 then None
    else if e[0].0 == k then Some(e[0].1)
    else Find(e[1..], k)
  }

  /** On a dict, the value found under the key at position `i` is the value
      at position `i`. */
  lemma {:induction false} FindAt(e: Entries, i: nat)
    requires Unique(e) && i < |e|
    ensures Find(e, e[i].0) == Some(e[i].1)
    decreases |e|
  {
    if i > 0 {
      FindAt(e[1..], i - 1);
      KeysIndex(e[1..], i - 1);
    }
  }

  /** `d[k] = v`: overwrite in place when `k` is present, append otherwise. */
  function Put(e: Entries, k: Key, v: Value): (r: Entries)
    ensures forall j :: Find(r, j) == if j == k then Some(v) else Find(e, j)
    ensures k in Keys(e) ==> Keys(r) == Keys(e)
    ensures k !in Keys(e) ==> r == e + [(k, v)]
    ensures Unique(e) ==> Unique(r)
  {
    if |e| == 0 then [(k, v)]
    else if e[0].0 == k then
      var r := [(k, v)] + e[1..];
      assert r[1..] == e[1..];
      r
    else
      var t := Put(e[1..], k, v);
      var r := [e[0]] + t;
      assert r[1..] == t;
      assert k !in Keys(e) ==> r == e + [(k, v)] by {
        if k !in Keys(e) {
          assert e == [e[0]] + e[1..];
        }
      }
      assert k !in Keys(e[1..]) ==> Keys(t) == Keys(e[1..]) + [k] by {
        if k !in Keys(e[1..]) { KeysAppend(e[1..], [(k, v)]); }
      }
      r
  }

  /** Every entry whose key is not in `ks`, in storage order: the dict that
      remains after deleting each key of `ks`. */
  function Drop(e: Entries, ks: set<Key>): (r: Entries)
    ensures |r| <= |e|
  {
    if |e| == 0 then []
    else if e[0].0 in ks then Drop(e[1..], ks)
    else [e[0]] + Drop(e[1..], ks)
  }

  /** After deleting `ks`, exactly the keys outside `ks` can be found, with
      their old values. */
  lemma {:induction false} DropFind(e: Entries, ks: set<Key>)
    ensures forall j :: Find(Drop(e, ks), j) == if j in ks then None else Find(e, j)
    decreases |e|
  {
    if |e| > 0 {
      DropFind(e[1..], ks);
      if e[0].0 !in ks {
        var r := [e[0]] + Drop(e[1..], ks);
        assert r[1..] == Drop(e[1..], ks);
      }
    }
  }

  /** Deleting keys from a dict leaves a dict. */
  lemma {:induction false} DropUnique(e: Entries, ks: set<Key>)
    requires Unique(e)
    ensures Unique(Drop(e, ks))
    decreases |e|
  {
    if |e| > 0 {
      DropUnique(e[1..], ks);
      if e[0].0 !in ks {
        var t := Drop(e[1..], ks);
        var r := [e[0]] + t;
        assert r[1..] == t;
        DropFind(e[1..], ks);
        assert Find(t, e[0].0) == None by {
          assert Find(e[1..], e[0].0) == None;
        }
      }
    }
  }

  /** `del d[k]` / `d.pop(k)`. */
  function Remove(e: Entries, k: Key): (r: Entries)
    ensures forall j :: Find(r, j) == if j == k then None else Find(e, j)
    ensures Unique(e) ==> Unique(r)
  {
    DropFind(e, {k});
    assert Unique(e) ==> Unique(Drop(e, {k})) by {
      if Unique(e) { DropUnique(e, {k}); }
    }
    Drop(e, {k})
  }

  /** `a` is `b` with some entries deleted and the others kept in their
      order. */
  predicate Sublist(a: Entries, b: Entries)
    decreases |b|
  {
    if |a| == 0 then true
    else if |b| == 0 then false
    else (a[0] == b[0] && Sublist(a[1..], b[1..])) || Sublist(a, b[1..])
  }

  /** Deleting keys keeps the surviving entries in their storage order. */
  lemma {:induction false} DropSublist(e: Entries, ks: set<Key>)
    ensures Sublist(Drop(e, ks), e)
    decreases |e|
  {
    if |e| > 0 {
      DropSublist(e[1..], ks);
      if e[0].0 !in ks {
        var r := [e[0]] + Drop(e[1..], ks);
        assert r[1..] == Drop(e[1..], ks);
      }
    }
  }

  /** The entries left after deleting `ks` are exactly the entries whose key
      is outside `ks`. */
  lemma {:induction false} DropMembers(e: Entries, ks: set<Key>)
    ensures forall p :: p in Drop(e, ks) <==> p in e && p.0 !in ks
    decreases |e|
  {
    if |e| > 0 {
      DropMembers(e[1..], ks);
      assert e == [e[0]] + e[1..];
    }
  }

  lemma KeySetCons(e: Entries)
    requires |e| > 0
    ensures KeySet(e) == {e[0].0} + KeySet(e[1..])
  {
    assert Keys(e) == [e[0].0] + Keys(e[1..]);
  }

  /** Dropping keys that do not occur changes nothing. */
  lemma {:induction false} DropAbsent(e: Entries, ks: set<Key>)
    requires forall k :: k in ks ==> k !in Keys(e)
    ensures Drop(e, ks) == e
    decreases |e|
  {
    if |e| > 0 {
      DropAbsent(e[1..], ks);
      assert [e[0]] + e[1..] == e;
    }
  }

  /** On a dict, the first key occurs nowhere else. */
  lemma FirstKeyDistinct(e: Entries, i: nat)
    requires Unique(e) && 0 < i < |e|
    ensures e[0].0 != e[i].0
  {
    KeysIndex(e[1..], i - 1);
  }

  lemma RemoveCons(e: Entries, k: Key)
    requires |e| > 0 && e[0].0 != k
    ensures Remove(e, k) == [e[0]] + Remove(e[1..], k)
  {
  }

  lemma ConsSlices(e: Entries, i: nat)
    requires 0 < i < |e|
    ensures [e[0]] + (e[1..][..i - 1] + e[1..][i..]) == e[..i] + e[i + 1..]
  {
    assert e[1..][..i - 1] == e[1..i];
    assert e[1..][i..] == e[i + 1..];
  }

  /** On a dict, deleting the key found at position `i` closes the gap and
      keeps every other entry where it was. */
  lemma {:induction false} RemoveAt(e: Entries, i: nat)
    requires Unique(e) && i < |e|
    ensures Remove(e, e[i].0) == e[..i] + e[i + 1..]
    decreases |e|
  {
    if i == 0 {
      DropAbsent(e[1..], {e[0].0});
      assert e[..0] + e[1..] == e[1..];
    } else {
      FirstKeyDistinct(e, i);
      RemoveCons(e, e[i].0);
      RemoveAt(e[1..], i - 1);
      ConsSlices(e, i);
    }
  }

  /** On a dict, deleting a present key closes the gap at the one position
      that key occupies. */
  lemma RemoveFound(e: Entries, k: Key)
    requires Unique(e) && k in Keys(e)
    ensures exists i :: 0 <= i < |e| && e[i].0 == k && Remove(e, k) == e[..i] + e[i + 1..]
  {
    var i :| 0 <= i < |Keys(e)| && Keys(e)[i] == k;
    KeysIndex(e, i);
    RemoveAt(e, i);
  }

  /** A dict holds as many entries as it has distinct keys. */
  lemma {:induction false} UniqueSize(e: Entries)
    requires Unique(e)
    ensures |KeySet(e)| == |e|
    decreases |e|
  {
    if |e| > 0 {
      KeySetCons(e);
      UniqueSize(e[1..]);
    }
  }

  /** Deleting a set of present keys shortens a dict by exactly that many
      entries. */
  lemma DropSize(e: Entries, ks: set<Key>)
    requires Unique(e) && ks <= KeySet(e)
    ensures |Drop(e, ks)| == |e| - |ks|
  {
    var r := Drop(e, ks);
    UniqueSize(e);
    DropUnique(e, ks);
    UniqueSize(r);
    DropFind(e, ks);
    assert KeySet(r) == KeySet(e) - ks by {
      forall j ensures j in KeySet(r) <==> j in KeySet(e) - ks {
        assert Find(r, j) == if j in ks then None else Find(e, j);
      }
    }
  }

  /** Dropping distributes over concatenation. */
  lemma {:induction false} DropAppend(a: Entries, b: Entries, ks: set<Key>)
    ensures Drop(a + b, ks) == Drop(a, ks) + Drop(b, ks)
    decreases |a|
  {
    if |a| > 0 {
      assert (a + b)[1..] == a[1..] + b;
      assert (a + b)[0] == a[0];
      DropAppend(a[1..], b, ks);
    } else {
      assert a + b == b;
    }
  }

  /** Dropping two key sets one after the other drops their union. */
  lemma {:induction false} DropDrop(e: Entries, a: set<Key>, b: set<Key>)
    ensures Drop(Drop(e, a), b) == Drop(e, a + b)
    decreases |e|
  {
    if |e| > 0 {
      DropDrop(e[1..], a, b);
      if e[0].0 !in a {
        var t := Drop(e[1..], a);
        assert Drop(e, a) == [e[0]] + t;
        assert ([e[0]] + t)[1..] == t;
      }
    }
  }

  lemma DropSingle(k: Key, w: Value, ks: set<Key>)
    requires k !in ks
    ensures Drop([(k, w)], ks) == [(k, w)]
  {
    assert [(k, w)][1..] == [];
  }

  /** Removing one key and then a set of others removes their union. */
  lemma RemoveThenDrop(e: Entries, k: Key, hidden: set<Key>)
    requires k in hidden
    ensures Drop(Remove(e, k), hidden - {k}) == Drop(e, hidden)
  {
    DropDrop(e, {k}, hidden - {k});
    assert {k} + (hidden - {k}) == hidden;
  }

  /** Re-inserting a removed key puts it behind every other entry, also in
      the view that hides a set of keys the re-inserted key has left. */
  lemma MoveToEnd(e: Entries, k: Key, w: Value, hidden: set<Key>)
    requires k in hidden
    ensures Drop(Remove(e, k) + [(k, w)], hidden - {k}) == Drop(e, hidden) + [(k, w)]
  {
    DropAppend(Remove(e, k), [(k, w)], hidden - {k});
    RemoveThenDrop(e, k, hidden);
    DropSingle(k, w, hidden - {k});
  }

  /** The same, for the keys of the view. */
  lemma MoveToEndKeys(e: Entries, k: Key, w: Value, hidden: set<Key>)
    requires k in hidden
    ensures Keys(Drop(Remove(e, k) + [(k, w)], hidden - {k})) == Keys(Drop(e, hidden)) + [k]
  {
    MoveToEnd(e, k, w, hidden);
    KeysAppend(Drop(e, hidden), [(k, w)]);
  }

  /** A key appended after a dict it is absent from reads back its value. */
  lemma FindAppended(a: Entries, k: Key, w: Value)
    requires k !in Keys(a)
    ensures Find(a + [(k, w)], k) == Some(w)
  {
    assert Put(a, k, w) == a + [(k, w)];
  }

  /** Moving a present key to the end keeps the number of entries. */
  lemma MoveToEndSize(e: Entries, k: Key, w: Value)
    requires Unique(e) && k in Keys(e)
    ensures |Remove(e, k) + [(k, w)]| == |e|
  {
    assert {k} <= KeySet(e);
    DropSize(e, {k});
  }

  /** `d.update(ps)`: assign each pair in turn. */
  function PutAll(e: Entries, ps: Entries): (r: Entries)
    ensures Unique(e) ==> Unique(r)
    decreases |ps|
  {
    if |ps| == 0 then e
    else PutAll(Put(e, ps[0].0, ps[0].1), ps[1..])
  }

  /** `dict.update` with a dict argument: every written key reads back the
      written value and every other key is untouched. */
  lemma {:induction false} PutAllFind(e: Entries, ps: Entries)
    requires Unique(ps)
    ensures forall j :: Find(PutAll(e, ps), j) == if j in Keys(ps) then Find(ps, j) else Find(e, j)
    decreases |ps|
  {
    if |ps| > 0 {
      PutAllFind(Put(e, ps[0].0, ps[0].1), ps[1..]);
    }
  }

  /** `dict.update` keeps the keys already present at their positions and
      appends the new ones after them. */
  lemma {:induction false} PutAllKeys(e: Entries, ps: Entries)
    ensures |e| <= |PutAll(e, ps)|
    ensures Keys(PutAll(e, ps))[..|e|] == Keys(e)
    ensures forall i :: |e| <= i < |PutAll(e, ps)| ==> Keys(PutAll(e, ps))[i] !in Keys(e)
    decreases |ps|
  {
    if |ps| > 0 {
      var (k, v) := ps[0];
      var e' := Put(e, k, v);
      PutAllKeys(e', ps[1..]);
      var r := PutAll(e, ps);
      assert r == PutAll(e', ps[1..]);
      if k !in Keys(e) {
        KeysAppend(e, [(k, v)]);
        assert Keys(e') == Keys(e) + [k];
        assert Keys(r)[..|e|] == Keys(r)[..|e'|][..|e|];
        forall i | |e| <= i < |r| ensures Keys(r)[i] !in Keys(e) {
          if i == |e| {
            assert Keys(r)[i] == Keys(r)[..|e'|][i] == k;
          }
        }
      }
    }
  }

  /** Adding to `ks` a key that does not occur changes nothing. */
  lemma {:induction false} DropExtraKey(e: Entries, ks: set<Key>, k: Key)
    requires k !in Keys(e)
    ensures Drop(e, ks + {k}) == Drop(e, ks)
    decreases |e|
  {
    if |e| > 0 {
      assert Keys(e) == [e[0].0] + Keys(e[1..]);
      DropExtraKey(e[1..], ks, k);
    }
  }

  /** `dict.update` keeps the key at a position that was already taken. */
  lemma PutAllKeyAt(e: Entries, ps: Entries, i: nat)
    requires i < |e|
    ensures i < |PutAll(e, ps)| && Keys(PutAll(e, ps))[i] == Keys(e)[i]
  {
    PutAllKeys(e, ps);
    assert Keys(PutAll(e, ps))[..|e|][i] == Keys(PutAll(e, ps))[i];
  }

  /** Appending one entry adds its key at the end. */
  lemma AppendOne(e: Entries, p: (Key, Value))
    ensures Keys(e + [p]) == Keys(e) + [p.0]
    ensures KeySet(e + [p]) == KeySet(e) + {p.0}
  {
    KeysAppend(e, [p]);
  }

  /** The first pair of an update whose key is new is appended. */
  lemma PutAllStepFresh(e: Entries, ps: Entries)
    requires |ps| > 0 && ps[0].0 !in Keys(e)
    ensures PutAll(e, ps) == PutAll(e + [ps[0]], ps[1..])
  {
    assert Put(e, ps[0].0, ps[0].1) == e + [ps[0]];
  }

  /** The first pair of an update whose key is present leaves the keys as
      they were. */
  lemma PutAllStepPresent(e: Entries, ps: Entries)
    requires |ps| > 0 && ps[0].0 in Keys(e)
    ensures PutAll(e, ps) == PutAll(Put(e, ps[0].0, ps[0].1), ps[1..])
    ensures Keys(Put(e, ps[0].0, ps[0].1)) == Keys(e)
    ensures KeySet(Put(e, ps[0].0, ps[0].1)) == KeySet(e)
  {
  }

  /** On a dict, the first pair is followed by its own deletion-free rest. */
  lemma DropConsFresh(ps: Entries, ks: set<Key>)
    requires Unique(ps) && |ps| > 0 && ps[0].0 !in ks
    ensures Keys(Drop(ps, ks)) == [ps[0].0] + Keys(Drop(ps[1..], ks + {ps[0].0}))
  {
    DropExtraKey(ps[1..], ks, ps[0].0);
    var rest := Drop(ps[1..], ks);
    assert Drop(ps, ks) == [ps[0]] + rest;
    assert ([ps[0]] + rest)[1..] == rest;
  }

  lemma SliceCons(ks: seq<Key>, n: nat)
    requires n < |ks|
    ensures ks[n..] == [ks[n]] + ks[n + 1..]
  {
  }

  /** `dict.update` appends the keys it did not find, in the order the
      update lists them. */
  lemma {:induction false} PutAllAppendsInOrder(e: Entries, ps: Entries)
    requires Unique(ps)
    ensures |e| <= |PutAll(e, ps)|
    ensures Keys(PutAll(e, ps))[|e|..] == Keys(Drop(ps, KeySet(e)))
    decreases |ps|
  {
    if |ps| == 0 {
      assert Keys(e)[|e|..] == [];
    } else if ps[0].0 in Keys(e) {
      PutAllStepPresent(e, ps);
      PutAllAppendsInOrder(Put(e, ps[0].0, ps[0].1), ps[1..]);
    } else {
      PutAllAppendsFresh(e, ps);
    }
  }

  lemma {:induction false} PutAllAppendsFresh(e: Entries, ps: Entries)
    requires Unique(ps) && |ps| > 0 && ps[0].0 !in Keys(e)
    ensures |e| <= |PutAll(e, ps)|
    ensures Keys(PutAll(e, ps))[|e|..] == Keys(Drop(ps, KeySet(e)))
    decreases |ps|, 0
  {
    var e' := e + [ps[0]];
    PutAllStepFresh(e, ps);
    AppendOne(e, ps[0]);
    PutAllAppendsInOrder(e', ps[1..]);
    PutAllKeyAt(e', ps[1..], |e|);
    DropConsFresh(ps, KeySet(e));
    SliceCons(Keys(PutAll(e', ps[1..])), |e|);
  }

  /** With only new keys, the rest of the update is new to the extended
      dict as well. */
  lemma FreshTail(e: Entries, ps: Entries)
    requires Unique(ps) && |ps| > 0 && KeySet(ps) !! KeySet(e)
    ensures ps[0].0 !in Keys(e)
    ensures KeySet(ps[1..]) !! KeySet(e + [ps[0]])
  {
    AppendOne(e, ps[0]);
    KeySetCons(ps);
  }

  lemma AppendFirst(e: Entries, ps: Entries)
    requires |ps| > 0
    ensures (e + [ps[0]]) + ps[1..] == e + ps
  {
  }

  /** `dict.update` with only new keys appends the pairs as given. */
  lemma {:induction false} PutAllFresh(e: Entries, ps: Entries)
    requires Unique(ps) && KeySet(ps) !! KeySet(e)
    ensures PutAll(e, ps) == e + ps
    decreases |ps|
  {
    if |ps| > 0 {
      FreshTail(e, ps);
      PutAllStepFresh(e, ps);
      PutAllFresh(e + [ps[0]], ps[1..]);
      AppendFirst(e, ps);
    } else {
      assert e + ps == e;
    }
  }

  /** Position of the first entry whose key is outside `keep`. */
  function FirstOutside(e: Entries, keep: set<Key>): (r: Option<nat>)
    ensures r.Some? ==> r.value < |e| && e[r.value].0 !in keep
    ensures r.Some? ==> forall i :: 0 <= i < r.value ==> e[i].0 in keep
    ensures r.None? ==> forall i :: 0 <= i < |e| ==> e[i].0 in keep
  {
    if |e| == 0 then None
    else if e[0].0 !in keep then Some(0)
    else
      match FirstOutside(e[1..], keep)
      case None => None
      case Some(i) => Some(i + 1)
  }

  /** The scan finds nothing exactly when every key is kept. */
  lemma {:induction false} FirstOutsideNone(e: Entries, keep: set<Key>)
    ensures FirstOutside(e, keep).None? <==> forall k :: k in Keys(e) ==> k in keep
    decreases |e|
  {
    if |e| > 0 {
      FirstOutsideNone(e[1..], keep);
      assert Keys(e) == [e[0].0] + Keys(e[1..]);
    }
  }
}

=== FILE: update.dfy ===
/** `update` and `update_unsafe`: bulk writes into a `BaseModelDict`. With
    assignment validation on, `update` writes pair by pair through
    `__setitem__` and restores the previous `__dict__` and `_unset` when a
    write is rejected; otherwise both write straight into `__dict__`. */
module Updates {
  import opened Results
  import opened Storage
  import opened Policies
  import opened ModelDict

  /** `for key, value in values.items(): self[key] = value`, stopping at the
      first exception. */
  function SetEach(m: Instance, ps: Entries, validate: Validator): (r: Step<()>)
    ensures r.after.schema == m.schema
    decreases |ps|
  {
    if |ps| == 0 then Step(m, Ok(()))
    else
      var s := SetAttr(m, ps[0].0, ps[0].1, validate);
      if s.out.Err? then s else SetEach(s.after, ps[1..], validate)
  }

  /** The keys of `ps` whose written value is not the Sentinel: the fields a
      pair-by-pair write takes out of `_unset`. */
  function SetKeys(ps: Entries): set<Key> {
    set i | 0 <= i < |ps| && ps[i].1 != Sentinel :: ps[i].0
  }

  /** Every pair may be written: each key is declared or extras are allowed,
      and mutation is not disallowed. */
  predicate Writable(s: Schema, ps: Entries) {
    && !s.policy.DisallowsMutation()
    && forall k :: k in Keys(ps) ==> k in s.fields || s.policy.extra == Allow
  }

  /** Once the extra-fields and immutability checks have passed, the only
      exception a pair-by-pair write can raise is a ValidationError, and it
      raises one exactly when the validator rejects some pair. */
  lemma {:induction false} SetEachOutcome(m: Instance, ps: Entries, validate: Validator)
    requires UnsetStored(m) && Writable(m.schema, ps)
    ensures SetEach(m, ps, validate).out.Ok? || SetEach(m, ps, validate).out == Err(ValidationError)
    ensures SetEach(m, ps, validate).out.Ok? <==>
      forall i :: 0 <= i < |ps| ==> Admitted(m.schema, ps[i].0, ps[i].1, validate).Some?
    decreases |ps|
  {
    if |ps| > 0 {
      var (k, v) := ps[0];
      SetAttrOutcome(m, k, v, validate);
      SetAttrKeepsUnsetStored(m, k, v, validate);
      var s := SetAttr(m, k, v, validate);
      if s.out.Ok? {
        assert Keys(ps) == [k] + Keys(ps[1..]);
        SetEachOutcome(s.after, ps[1..], validate);
        forall i | 0 <= i < |ps[1..]| ensures ps[1..][i] == ps[i + 1] { }
      }
    }
  }

  /** A pair-by-pair write keeps the invariant, whether it stops early or
      not, provided the validator does not turn the Sentinel into something
      else. */
  lemma {:induction false} SetEachPreservesValid(m: Instance, ps: Entries, validate: Validator)
    requires Valid(m) && KeepsSentinel(validate)
    ensures Valid(SetEach(m, ps, validate).after)
    decreases |ps|
  {
    if |ps| > 0 {
      SetAttrPreservesValid(m, ps[0].0, ps[0].1, validate);
      var s := SetAttr(m, ps[0].0, ps[0].1, validate);
      if s.out.Ok? {
        SetEachPreservesValid(s.after, ps[1..], validate);
      }
    }
  }

  /** A pair-by-pair write that succeeds leaves each written key holding its
      admitted value, every other key as it was, and takes out of `_unset`
      exactly the keys written with something other than the Sentinel. */
  lemma {:induction false} SetEachWrites(m: Instance, ps: Entries, validate: Validator)
    requires Unique(ps)
    requires SetEach(m, ps, validate).out.Ok?
    ensures var after := SetEach(m, ps, validate).after;
      forall j :: Find(after.storage, j) ==
        if j in Keys(ps) then Admitted(m.schema, j, Find(ps, j).value, validate) else Find(m.storage, j)
    ensures SetEach(m, ps, validate).after.unset == m.unset - SetKeys(ps)
    decreases |ps|
  {
    if |ps| > 0 {
      var (k, v) := ps[0];
      var s := SetAttr(m, k, v, validate);
      var rest := ps[1..];
      SetEachWrites(s.after, rest, validate);
      assert SetKeys(ps) == (if v != Sentinel then {k} else {}) + SetKeys(rest) by {
        forall x ensures x in SetKeys(ps) <==> x in (if v != Sentinel then {k} else {}) + SetKeys(rest) {
          if x in SetKeys(rest) {
            var i :| 0 <= i < |rest| && rest[i].1 != Sentinel && rest[i].0 == x;
            assert ps[i + 1] == rest[i];
          }
          if x in SetKeys(ps) {
            var i :| 0 <= i < |ps| && ps[i].1 != Sentinel && ps[i].0 == x;
            if i > 0 { assert rest[i - 1] == ps[i]; }
          }
        }
      }
    }
  }

  /** `update_unsafe(values)`: every key of `values` leaves `_unset`, whatever
      its value, and `__dict__.update(values)` runs with neither the
      extra-fields check nor validation: keys already stored keep their
      positions, and the new ones follow them in the order of `values`. */
  function UpdateUnsafe(m: Instance, ps: Entries): (r: Step<()>)
    requires Unique(ps)
    ensures m.schema.policy.DisallowsMutation() ==> r == Step(m, Err(TypeError))
    ensures !m.schema.policy.DisallowsMutation() ==> r.out.Ok? && r.after.schema == m.schema
    ensures r.out.Ok? ==> forall j :: Find(r.after.storage, j) == if j in Keys(ps) then Find(ps, j) else Find(m.storage, j)
    ensures r.out.Ok? ==> r.after.unset == m.unset - KeySet(ps)
    ensures r.out.Ok? ==> |m.storage| <= |r.after.storage| && Keys(r.after.storage)[..|m.storage|] == Keys(m.storage)
    ensures r.out.Ok? ==> Keys(r.after.storage)[|m.storage|..] == Keys(Drop(ps, KeySet(m.storage)))
    ensures r.out.Ok? && KeySet(ps) !! KeySet(m.storage) ==> r.after.storage == m.storage + ps
    ensures Valid(m) ==> Valid(r.after)
  {
    if m.schema.policy.DisallowsMutation() then Step(m, Err(TypeError))
    else
      var after := m.(storage := PutAll(m.storage, ps), unset := m.unset - KeySet(ps));
      PutAllFind(m.storage, ps);
      PutAllKeys(m.storage, ps);
      PutAllAppendsInOrder(m.storage, ps);
      assert KeySet(ps) !! KeySet(m.storage) ==> after.storage == m.storage + ps by {
        if KeySet(ps) !! KeySet(m.storage) { PutAllFresh(m.storage, ps); }
      }
      assert Valid(m) ==> Valid(after) by {
        if Valid(m) {
          forall f | f in m.schema.fields ensures f in Keys(after.storage) {
            assert Find(m.storage, f).Some?;
          }
          forall u | u in after.unset ensures Find(after.storage, u) == Some(Sentinel) {
            assert u !in Keys(ps);
          }
        }
      }
      Step(after, Ok(()))
  }

  /** `update(values)`: the immutability check, then the fail-fast scan for an
      extra key while extras are not allowed, then either `update_unsafe` (no
      assignment validation) or the pair-by-pair write, rolled back when it
      raises a ValidationError or TypeError. */
  function Update(m: Instance, ps: Entries, validate: Validator): (r: Step<()>)
    requires Unique(ps)
    ensures r.after.schema == m.schema
    ensures m.schema.policy.DisallowsMutation() ==> r == Step(m, Err(TypeError))
    ensures (!m.schema.policy.DisallowsMutation() && m.schema.policy.extra != Allow
      && exists k :: k in Keys(ps) && k !in m.schema.fields) ==> r == Step(m, Err(ValueError))
  {
    FirstOutsideNone(ps, m.schema.fields);
    if m.schema.policy.DisallowsMutation() then Step(m, Err(TypeError))
    else if FirstOutside(ps, m.schema.fields).Some? && m.schema.policy.extra != Allow then Step(m, Err(ValueError))
    else if !m.schema.policy.validateAssignment then UpdateUnsafe(m, ps)
    else
      var s := SetEach(m, ps, validate);
      if s.out == Err(ValidationError) || s.out == Err(TypeError) then Step(m, s.out) else s
  }

  /** On a valid instance the only exceptions `update` raises are TypeError,
      ValueError and ValidationError. */
  lemma UpdateRaises(m: Instance, ps: Entries, validate: Validator)
    requires Unique(ps) && Valid(m)
    ensures Update(m, ps, validate).out.Err? ==>
      Update(m, ps, validate).out.error in {TypeError, ValueError, ValidationError}
  {
    UpdateCases(m, ps, validate);
  }

  /** All or nothing: when `update` raises, neither `__dict__` nor `_unset`
      has changed. */
  lemma UpdateAllOrNothing(m: Instance, ps: Entries, validate: Validator)
    requires Unique(ps) && Valid(m)
    ensures Update(m, ps, validate).out.Err? ==> Update(m, ps, validate).after == m
  {
    UpdateCases(m, ps, validate);
  }

  /** The ValidationError of `update` is possible only with assignment
      validation on, once the immutability and extra-fields checks have
      passed, and arises exactly when the validator rejects some pair. */
  lemma UpdateValidationError(m: Instance, ps: Entries, validate: Validator)
    requires Unique(ps) && Valid(m)
    ensures Update(m, ps, validate).out == Err(ValidationError) <==>
      && Writable(m.schema, ps) && m.schema.policy.validateAssignment
      && exists i :: 0 <= i < |ps| && Admitted(m.schema, ps[i].0, ps[i].1, validate).None?
  {
    UpdateCases(m, ps, validate);
  }

  /** `update` keeps a valid instance valid, whether it succeeds or not. */
  lemma UpdatePreservesValid(m: Instance, ps: Entries, validate: Validator)
    requires Unique(ps) && Valid(m) && KeepsSentinel(validate)
    ensures Valid(Update(m, ps, validate).after)
  {
    UpdateCases(m, ps, validate);
    SetEachPreservesValid(m, ps, validate);
  }

  /** The case split shared by the lemmas above: the pair-by-pair
      write is reached exactly when every pair may be written. */
  lemma UpdateCases(m: Instance, ps: Entries, validate: Validator)
    requires Unique(ps) && Valid(m)
    ensures !m.schema.policy.DisallowsMutation() && m.schema.policy.validateAssignment && Writable(m.schema, ps) ==>
      && Update(m, ps, validate).after == (if SetEach(m, ps, validate).out.Ok? then SetEach(m, ps, validate).after else m)
      && Update(m, ps, validate).out == SetEach(m, ps, validate).out
      && (SetEach(m, ps, validate).out.Ok? || SetEach(m, ps, validate).out == Err(ValidationError))
      && (SetEach(m, ps, validate).out.Ok? <==>
            forall i :: 0 <= i < |ps| ==> Admitted(m.schema, ps[i].0, ps[i].1, validate).Some?)
    ensures !m.schema.policy.DisallowsMutation() && !Writable(m.schema, ps) ==> Update(m, ps, validate) == Step(m, Err(ValueError))
  {
    FirstOutsideNone(ps, m.schema.fields);
    var p := m.schema.policy;
    if !p.DisallowsMutation() && Writable(m.schema, ps) && p.validateAssignment {
      SetEachOutcome(m, ps, validate);
    }
  }

  /** A successful `update` leaves every written key reading back the value
      written (after validation, when that is on) and every other key as it
      was. */
  lemma UpdateWrites(m: Instance, ps: Entries, validate: Validator)
    requires Unique(ps)
    requires Update(m, ps, validate).out.Ok?
    ensures forall j :: Find(Update(m, ps, validate).after.storage, j) ==
                          if j in Keys(ps) then Admitted(m.schema, j, Find(ps, j).value, validate)
                          else Find(m.storage, j)
  {
    if m.schema.policy.validateAssignment {
      SetEachWrites(m, ps, validate);
    }
  }

  /** A successful `update` takes every written key out of `_unset`, except a
      key written with the Sentinel under assignment validation. */
  lemma UpdateClearsUnset(m: Instance, ps: Entries, validate: Validator)
    requires Unique(ps)
    requires Update(m, ps, validate).out.Ok?
    ensures Update(m, ps, validate).after.unset ==
      m.unset - (if m.schema.policy.validateAssignment then SetKeys(ps) else KeySet(ps))
  {
    if m.schema.policy.validateAssignment {
      SetEachWrites(m, ps, validate);
    }
  }

  /** With assignment validation off, `update` behaves as `update_unsafe`
      except that it still refuses extra keys when extras are not allowed. */
  lemma UpdateIsUnsafeWithoutValidation(m: Instance, ps: Entries, validate: Validator)
    requires Unique(ps) && !m.schema.policy.validateAssignment
    ensures m.schema.policy.extra == Allow || (forall k :: k in Keys(ps) ==> k in m.schema.fields) ==>
      Update(m, ps, validate) == UpdateUnsafe(m, ps)
    ensures (!m.schema.policy.DisallowsMutation() && m.schema.policy.extra != Allow
      && exists k :: k in Keys(ps) && k !in m.schema.fields) ==>
      Update(m, ps, validate).out == Err(ValueError) && UpdateUnsafe(m, ps).out.Ok?
  {
    FirstOutsideNone(ps, m.schema.fields);
    var u := UpdateUnsafe(m, ps);
    if m.schema.policy.DisallowsMutation() {
      assert u == Step(m, Err(TypeError));
    } else {
      assert u.out.Ok?;
    }
  }

  /** A frozen model, or one with `allow_mutation` off, refuses every guarded
      dict method with a TypeError and leaves the instance as it was. */
  lemma FrozenRejectsEveryMutation(m: Instance, k: Key, v: Value, d: Option<Value>, ps: Entries, validate: Validator)
    requires m.schema.policy.DisallowsMutation() && Unique(ps)
    ensures DelItem(m, k) == Step(m, Err(TypeError))
    ensures Pop(m, k, d) == Step(m, Err(TypeError))
    ensures PopItem(m) == Step(m, Err(TypeError))
    ensures Clear(m) == Step(m, Err(TypeError))
    ensures SetDefault(m, k, v, validate) == Step(m, Err(TypeError))
    ensures Update(m, ps, validate) == Step(m, Err(TypeError))
    ensures UpdateUnsafe(m, ps) == Step(m, Err(TypeError))
  {
  }
}
